=== FILE: README.md ===
# Chat relay and file receiver, modelled in Dafny

This project models two small socket servers.

**The chat relay** is `server.py`. The server keeps a registry `self.clients`, a list of `(conn, addr)` pairs. The accept loop appends each new connection to it. Each handler thread then repeats three things: receive data, unpickle it, and broadcast it to the other registered clients (see Findings). `broadcast_message` walks the registry with a Python `for` loop. When a send fails, it removes that client from the list it is walking and closes the connection. On every exit path, the handler's `finally` block calls `self.clients.remove((conn, addr))` and, if that does not raise, closes its own connection.

The model turns this into a functional state machine (`Relay.Next`). It has three atomic steps, one per `with self.lock` block:

- `Accept`
- `Forward`, one broadcast
- `Leave`, the handler's cleanup

Other parts of the model:

- Connections are abstract ids. A counter hands out a fresh id on each accept.
- The registry is a sequence of entries (`Registry`).
- `list.remove` is modelled exactly: it deletes the first equal element and raises `ValueError` when the element is absent (`Seqs.ListRemove`).
- A broadcast's environment is the set of connections for which the body of the `try` raises: `pickle.dumps(message)`, `sendall` or the print after it.
- `Broadcast.Iterate` is the `for` loop as Python runs it: an index walk over a list that shrinks under it.
- One handler thread is `Relay.Handle`, a function over the finite sequence of events its `recv` calls produce:
  - data
  - end of stream
  - an unpickling error
  - any other exception

**The file receiver** is `socket_server.py`. For each connection it does the following:

1. Read a file name with one `recv(1024)`.
2. Reduce the name with `os.path.basename` and join it onto `received_files`.
3. Open the path with trailing whitespace stripped: first with `'w'`, then with `'wb'`.
4. Write every chunk received until `recv` returns `b''`.

`Paths` models this path computation on strings:

- `posixpath.basename`
- `posixpath.join` for one component
- `str.rstrip` with Python's `isspace` set

`FileServer` models the rest:

- the receive loop (`ReceiveLoop`, and the function `ReceivedContent` it computes)
- a file system, as a map from path strings to files and directories
- `os.makedirs` at start-up
- one connection (`Serve`) and the sequential accept loop (`ServeAll`)

## Model

| member | source | states |
|---|---|---|
| `Seqs.IndexOf` | server.py:56 | the position `list.remove` deletes holds the element and is its first occurrence |
| `Seqs.RemoveFirst` | server.py:69 | `list.remove` on a present element shortens the list by one and takes away exactly one copy of that element |
| `Seqs.ListRemove` | server.py:56 | `list.remove` raises exactly when the element is absent; otherwise exactly one copy is taken away |
| `Seqs.ListRemoveDeletesFirst` | server.py:56 | a successful `list.remove` deletes the first occurrence and keeps everything else in order |
| `Seqs.RemoveFirstSubseq` | server.py:69 | removing a failed client keeps the survivors in their relative order |
| `Seqs.SubseqMembers` | server.py:69 | whatever survives removals from the registry was registered before |
| `Registry.Register` | server.py:26-27 | `append` puts the new entry last and leaves every earlier entry in place; the registry stays duplicate-free exactly when the new connection was not registered yet |
| `Broadcast.RecipientsCount` | server.py:61-62 | every entry other than the sender's is a recipient as often as it is registered, and the sender's entry never is |
| `Broadcast.IterateAccounted` | server.py:61-70 | while the loop runs, every entry is either still registered or dropped, survivors keep their order, only live non-senders receive, and only failed non-senders are dropped |
| `Broadcast.BroadcastSound` | server.py:59-70 | a broadcast never sends to the sender; every dropped entry is a non-sender whose send failed and was registered; the new length is the old length minus the dropped count; the sender's entry is never removed; distinct connections stay distinct |
| `Broadcast.IterateQuiet` | server.py:61-65 | when no send fails, the loop from any position on delivers to the remaining non-sender entries and changes nothing |
| `Broadcast.BroadcastWithoutFailures` | server.py:61-65 | when no send fails, every entry other than the sender's receives the message once per occurrence, in registry order, and the registry is unchanged |
| `Broadcast.BroadcastIsWalk` | server.py:61-69 | on a registry with distinct connections, the Python loop equals the front-to-back walk in which a failed entry also consumes its successor |
| `Broadcast.IterateWalk` | server.py:61-69 | the loop from position `i` of the mutated list equals the walk over the rest of the list |
| `Broadcast.DropUnique` | server.py:69 | in a duplicate-free registry, `remove(clients[i])` deletes exactly position `i` |
| `Broadcast.IterateQuietPrefix` | server.py:61-65 | over a stretch of the registry where no send fails, the loop only collects the non-sender entries |
| `Broadcast.WalkDeliversFromInput` | server.py:61-65 | the walk only sends to entries of the registry it walks |
| `Broadcast.BroadcastAfterFirstFailure` | server.py:61-70 | up to the first failed entry the loop sends to every non-sender; it drops the failed entry, skips its successor, and walks the rest |
| `Broadcast.BroadcastSkipsSuccessor` | server.py:61-70 | the live entry right after the first failed one stays registered but is not sent to by the loop as written; the corrected broadcast does send to it |
| `Broadcast.BroadcastSkipsNeighbour` | server.py:61-70 | with a failing client followed by a live one, the live client is not sent to by the loop as written, but is sent to by the corrected broadcast |
| `Broadcast.BroadcastSkipsFailingNeighbour` | server.py:61-70 | with two failing clients in a row, the loop as written drops and closes only the first; the second stays registered and open, while the corrected broadcast drops both |
| `Broadcast.CorrectedDeliversToEveryLivePeer` | server.py:61-70 | the corrected broadcast sends to every live non-sender once per occurrence and drops exactly the failed non-senders |
| `Broadcast.CorrectedAccounted` | server.py:61-70 | the corrected broadcast keeps the same accounting as the loop: survivors in order, only live peers sent to, only failed peers dropped |
| `Broadcast.CorrectedQuiet` | server.py:61-65 | without failures, the corrected broadcast also sends to every non-sender and leaves the registry as it was |
| `Broadcast.FanSound` | server.py:59-70 | both broadcast versions keep the shared guarantees and coincide when no send fails |
| `Relay.AcceptRegistersFresh` | server.py:24-27 | an accept appends an entry whose connection no registered entry has and keeps the registry invariant |
| `Relay.ForwardDelivers` | server.py:59-70 | a relay step sends the message unchanged, only to registered live peers other than the sender; it drops and closes only failed peers; registry plus dropped entries is the old registry; the sender stays; without failures nothing changes and every other entry gets the message |
| `Relay.LeaveRemovesFirst` | server.py:53-57 | cleanup deletes the first equal entry and closes the connection; if the entry is gone already, `remove` raises, the close is not reached, and nothing changes |
| `Relay.DroppedPeerCleanupRaises` | server.py:53-70 | the cleanup of a peer that a broadcast already dropped raises in `remove` and changes nothing |
| `Relay.ForwardKeepsGood` | server.py:59-70 | a broadcast keeps connections distinct, accepted and open |
| `Relay.LeaveKeepsGood` | server.py:55-56 | cleanup keeps connections distinct, accepted and open |
| `Relay.NextKeepsGood` | server.py:24-70 | every locked step keeps the registry invariant |
| `Relay.RunKeepsGood` | server.py:23-70 | any interleaving of locked steps keeps the registry invariant |
| `Relay.ReachableIsGood` | server.py:13 | from the empty registry, every reachable state has distinct, accepted and still open connections |
| `Relay.AcceptThenLeave` | server.py:26-27 | registering and then removing a connection restores the registry, closes the connection, and no later broadcast reaches it |
| `Relay.HandleStopsAtFirstNonData` | server.py:34-49 | the handler loop ends exactly when some receive is not data, and events after the first such receive are never read |
| `Relay.HandleCleansUp` | server.py:32-57 | a handler never sends to itself and keeps the invariant; after any exit its entry is gone; the removal succeeds exactly when its entry was still registered, and then its connection is closed |
| `Relay.ClosedGrows` | server.py:53-70 | a handler only ever adds to the set of closed connections |
| `Relay.RelayScenario` | server.py:23-70 | A and B connect; A's message reaches only B; after B leaves, A's next message reaches nobody; C joins and its message reaches only A |
| `Relay.PairHearsEachOther` | server.py:61-65 | with two clients and no failures, a message from one reaches exactly the other |
| `Relay.LoneSenderReachesNobody` | server.py:59-62 | a message from the only registered client is sent to nobody and leaves the server as it was |
| `Paths.RFind` | socket_server.py:40 | the result is the last position of the character, or -1 when it does not occur |
| `Paths.BasenameSpec` | socket_server.py:40 | the basename is the longest suffix of the name without `/`; it is preceded by `/` unless it is the whole name |
| `Paths.RStripSpec` | socket_server.py:45 | `rstrip` keeps a prefix, everything it cuts is whitespace, and no whitespace is left at the end |
| `Paths.BasenameOfPlainName` | socket_server.py:40 | a name without `/` is its own basename |
| `Paths.BasenameIdempotent` | socket_server.py:40 | sanitising an already sanitised name changes nothing |
| `Paths.RStripIdempotent` | socket_server.py:45 | stripping twice is stripping once |
| `Paths.RStripAfter` | socket_server.py:50 | stripping never reaches past a non-whitespace character, so leading and inner characters are kept |
| `Paths.SavePathShape` | socket_server.py:40-50 | the opened path is `received_files/` followed by the stripped basename, which has no `/` |
| `Paths.JoinUnderSaveDir` | socket_server.py:41 | joining a name without `/` onto `received_files` inserts exactly one `/` |
| `Paths.JoinKeepsBasename` | socket_server.py:40-41 | for any directory and any non-empty component, the basename of the joined path is the basename of the component |
| `Paths.BasenameAppend` | socket_server.py:40 | a prefix ending in `/` does not change the basename of what follows it, and no prefix changes the basename of something holding a `/` |
| `Paths.BasenameOfJoined` | socket_server.py:40-41 | the basename of `dir/name` is `name` |
| `Paths.SavePathOfClientName` | socket_server.py:38-50 | the file name the client sends, followed by a newline, is saved under exactly that name |
| `Paths.SavePathOfNested` | socket_server.py:40-41 | only the last component of a nested name survives |
| `Paths.SavePathDropsTraversal` | socket_server.py:40 | `../../etc/passwd` is saved as `received_files/passwd` |
| `Paths.SavePathKeepsDotDot` | socket_server.py:40 | the name `..` is not rejected: the path becomes `received_files/..` |
| `Paths.SavePathOfDirectoryName` | socket_server.py:40-41 | a name ending in `/` gives the directory path `received_files/` |
| `FileServer.Stop` | socket_server.py:51-55 | every chunk before the stop is non-empty, and the read at the stop is an empty chunk or a failed `recv` |
| `FileServer.StopUnique` | socket_server.py:54-55 | the first empty chunk or failed `recv` is the only place the loop can stop |
| `FileServer.ConcatAppend` | socket_server.py:56 | writing two runs of chunks gives the first run's bytes followed by the second run's |
| `FileServer.ReceiveLoop` | socket_server.py:51-56 | the loop writes, in order, exactly the chunks before the first empty chunk or failed `recv`; it reports whether the peer closed, `recv` raised, or it is still waiting |
| `FileServer.ReceivedContentIgnoresLater` | socket_server.py:54-55 | after the empty chunk, later data is never read and changes neither content nor ending |
| `FileServer.ReceivedContentGrows` | socket_server.py:51-56 | while the loop waits, the bytes written so far stay and new chunks are appended after them |
| `FileServer.OpenAgain` | socket_server.py:45-50 | the second open of the same path succeeds whenever the first did, and leaves the same empty file |
| `FileServer.Prepare` | socket_server.py:12-13 | afterwards `received_files` exists; if it was missing it is a directory; nothing else changes |
| `FileServer.ServeOutcome` | socket_server.py:33-62 | an empty first receive saves nothing; a failed header or a failed open changes nothing; a successful transfer writes exactly the received bytes to the save path of the sent name and changes no other path |
| `FileServer.SavePathConfined` | socket_server.py:40-50 | every path the server can write is a direct entry of `received_files` |
| `FileServer.ServeConfined` | socket_server.py:33-56 | whatever name is sent, a connection changes nothing outside `received_files` and does not change the directory itself |
| `FileServer.ServeRefusesDirectoryNames` | socket_server.py:40-45 | a name whose stripped last component is empty, `.` or `..` survives sanitisation, but the open raises and nothing is written |
| `FileServer.ServeClientUpload` | socket_server.py:33-56 | in a ready `received_files`, a file name without NUL and of at most 255 bytes, sent with a trailing newline, is saved under exactly that name and holds exactly the received bytes |
| `FileServer.ServeRefusesUnopenable` | socket_server.py:40-50 | a last component holding a NUL, or longer than 255 bytes once stripped, survives sanitisation, but the open raises and nothing is written |
| `FileServer.BlockedSaveDir` | socket_server.py:12-13 | if `received_files` exists as a plain file, nothing is ever saved |
| `FileServer.ServeAll` | socket_server.py:24-62 | the server loop records exactly one outcome per accepted connection |
| `FileServer.ServeAllAppend` | socket_server.py:24-62 | serving two batches of connections in turn is serving them all: the second batch starts on the file system the first one left, and the outcomes are listed in order |
| `FileServer.ServeAllEach` | socket_server.py:24-62 | the outcome recorded for connection `k` is that of serving it on the file system left by the `k` connections before it |
| `FileServer.ServeAllLast` | socket_server.py:24-62 | the file system after the last connection is what serving that connection left |
| `FileServer.ServeAllConfined` | socket_server.py:24-56 | over any number of connections, only direct entries of `received_files` ever change |
| `FileServer.StartServerConfined` | socket_server.py:10-56 | over a whole run, `received_files` is a directory exactly when it was missing or already a directory, and nothing else outside it changes |
| `FileServer.UploadScenario` | socket_server.py:10-57 | a fresh server receiving `report.txt` in two chunks holds exactly those five bytes under `received_files/report.txt` |

## Left out

- Threads and `threading.Lock`: each locked block is one atomic step, and any order of steps is allowed (`Relay.Run`). Scheduling and fairness are not modelled.
- `pickle`: messages are opaque byte strings. An undecodable message is the abstract receive event `Garbled`. The encoding by `pickle.dumps` before sending is not modelled; its failure is.
- Sockets, `bind`, `listen`, `accept`, `sendall` and `close` are not modelled. The broadcast's `down` set holds the peers for which server.py:64 or :65 raises: `pickle.dumps(message)`, `sendall` or the print. A `pickle.dumps` failure depends on the message, not the peer, so `down` may then hold every peer; the model leaves `down` unconstrained and chosen per broadcast, which covers this. A close is recorded in the set of closed connections.
- The boundaries of `recv` chunks are not modelled. In particular, the first `recv(1024)` of the file receiver may also return content bytes. The model takes the header as an already received and decoded name.
- UTF-8 decoding of the file name: it becomes the header outcome `Name`, or `Failure` when decoding raises.
- Printing and error messages.
- Buffering inside the file object is not modelled: the content counts as written when `f.write` is called.
- `posixpath` is modelled only for the arguments it receives here:
  - `basename`
  - `join` with one component
  - no path normalisation
- The file system is a map of path strings. A path is opened only when it holds no NUL character, its last component is at most 255 bytes in UTF-8 (`NAME_MAX`) and is not empty, `.` or `..`, the path is not a directory, and its parent directory exists. Permissions, disk space and symbolic links are not modelled. The 4096-byte limit on a whole path (`PATH_MAX`) is not modelled: a name read by one `recv(1024)` keeps the save path far below it, though the model's header name is unbounded.
- socket_ftp.py, the file client, is not part of this model beyond the shape of the name it sends: its basename followed by a newline (`Paths.SavePathOfClientName`, `FileServer.ServeClientUpload`). Its read loop assigns each chunk to `f.read`: the first `f.read(4096)` works and its chunk is sent, and on the second pass calling the stored `bytes` object raises `TypeError`, which the `except` catches before the socket is half-closed. So the client sends its name line and at most the first 4096 bytes of the file; an empty file ends the loop cleanly on the first pass.
- client.py, ex2.py, ex3.py, ipaddr.py and ping.py are not part of this model. They hold interactive loops, `sleep` and thread demonstrations, a wrapper over `ipaddress`, and subprocess, SMTP and scheduling code.
- No message framing exists in the code: messages are unframed pickles read with one `recv(4096)`. No codec is modelled.
- Removing an absent connection might be expected to be a no-op. In the code, `list.remove` raises `ValueError` and the close on the next line is skipped. The model follows the code (`Relay.LeaveRemovesFirst`, `Relay.HandleCleansUp`).
- Sanitisation might be expected to reject path-traversal segments. The code only takes the basename: `..`, `.` and names ending in `/` pass through (`Paths.SavePathKeepsDotDot`). The open then fails because such a path names a directory (`FileServer.ServeRefusesDirectoryNames`). The model follows the code.
- The registry might be expected to be iterated as a snapshot. The code walks the live list and mutates it during the walk (see Findings). The model follows the code, and also gives the snapshot version.

## Findings

| source | as written | input that shows it | evidently intended | confidence | as-written member | corrected member |
|---|---|---|---|---|---|---|
| server.py:61-69 | `broadcast_message` removes a failed client from `self.clients` while a `for` loop walks that same list. The loop's position still advances after the removal. | The registry holds a failing client followed by a live one, and a third client is sending. The removal shifts the live client into the position just visited, so it never gets the message and stays registered. | Every live client other than the sender gets the message, and failed clients are dropped, as when iterating a snapshot of the list. | not executed | `Broadcast.BroadcastSkipsSuccessor` | `Broadcast.CorrectedDeliversToEveryLivePeer` |

`Broadcast.BroadcastMessage` and `Broadcast.Iterate` are the loop as written. `Broadcast.BroadcastSkipsNeighbour` is the smallest instance: two clients and a third sender. `Broadcast.BroadcastSkipsFailingNeighbour` shows that a skipped peer whose send would fail is not dropped either: it stays registered and open. `Broadcast.BroadcastIsWalk` characterises the skip in general: a failed entry also consumes its successor. `Broadcast.Corrected` is the snapshot version. The relay (`Relay.Next`, `Relay.Handle`) is parametrised by a `Policy`, so it runs with either broadcast. Its safety lemmas hold for both.

=== FILE: broadcast.dfy ===
/**
 * `Server.broadcast_message` (server.py): under the lock, walk the registry
 * with a Python `for` loop, `sendall` the message to each entry it visits
 * whose connection is not the sender's, and on a failed send remove that
 * entry from the very list being walked and close its connection. The
 * removal shifts the next entry into the slot just visited, so that entry
 * is skipped.
 *
 * A broadcast's environment is the set `down` of connections for which
 * the body of the `try` raises during it: `pickle.dumps(message)`, the
 * `sendall` or the print after it. Since `pickle.dumps` can fail on the
 * message itself, `down` may depend on the message and may hold every
 * peer. The message is opaque here; the relay module attaches it to the
 * deliveries.
 */
module Broadcast {
  import opened Seqs
  import opened Registry

  /** What one broadcast leaves behind: the registry, the entries that got the message, the entries dropped and closed. */
  datatype Fanout = Fanout(clients: seq<Entry>, delivered: seq<Entry>, closed: seq<Entry>)

  /** Entries other than the sender's, in registry order. */
  function Recipients(clients: seq<Entry>, sender: Conn): seq<Entry>
  {
    if clients == [] then []
    else (if clients[0].conn == sender then [] else [clients[0]]) + Recipients(clients[1..], sender)
  }

  /** Each entry other than the sender's is a recipient exactly as often as it is registered; the sender's never is. */
  lemma {:induction false} RecipientsCount(clients: seq<Entry>, sender: Conn)
    ensures forall e :: multiset(Recipients(clients, sender))[e] == if e.conn == sender then 0 else multiset(clients)[e]
    decreases |clients|
  {
    if clients != [] {
      RecipientsCount(clients[1..], sender);
      assert clients == [clients[0]] + clients[1..];
    }
  }

  /** No send to a non-sender fails. */
  predicate Quiet(clients: seq<Entry>, sender: Conn, down: set<Conn>)
  {
    forall e | e in clients :: e.conn == sender || e.conn !in down
  }

  /**
   * The `for` loop from list position `i` on, exactly as Python runs it:
   * the iterator reads `clients[i]` of the list as it is now, and a removal
   * (`list.remove`, first equal entry) shifts later entries left while the
   * position still advances.
   */
  function Iterate(clients: seq<Entry>, i: nat, sender: Conn, down: set<Conn>,
                   delivered: seq<Entry>, closed: seq<Entry>): Fanout
    decreases |clients| - i
  {
    if i >= |clients| then Fanout(clients, delivered, closed)
    else
      var e := clients[i];
      if e.conn == sender then Iterate(clients, i + 1, sender, down, delivered, closed)
      else if e.conn !in down then Iterate(clients, i + 1, sender, down, delivered + [e], closed)
      else Iterate(RemoveFirst(clients, e), i + 1, sender, down, delivered, closed + [e])
  }

  /** One call of `broadcast_message(message, sender_conn)` as written. */
  function BroadcastMessage(clients: seq<Entry>, sender: Conn, down: set<Conn>): Fanout
  {
    Iterate(clients, 0, sender, down, [], [])
  }

  /**
   * Reference reading of the same pass over a registry without repeated
   * connections: entries are consumed front to back, and a failed entry
   * also consumes its successor, which stays registered but is not sent to.
   */
  function Walk(clients: seq<Entry>, sender: Conn, down: set<Conn>): Fanout
    decreases |clients|
  {
    if clients == [] then Fanout([], [], [])
    else
      var e := clients[0];
      if e.conn == sender then
        var w := Walk(clients[1..], sender, down);
        Fanout([e] + w.clients, w.delivered, w.closed)
      else if e.conn !in down then
        var w := Walk(clients[1..], sender, down);
        Fanout([e] + w.clients, [e] + w.delivered, w.closed)
      else if |clients| == 1 then Fanout([], [], [e])
      else
        var w := Walk(clients[2..], sender, down);
        Fanout([clients[1]] + w.clients, w.delivered, [e] + w.closed)
  }

  /**
   * The broadcast that the comment at server.py:68 ("good for robustness")
   * intends: every live peer gets the message, and failed peers are dropped
   * from the registry only after the pass (iterating a snapshot).
   */
  function Corrected(clients: seq<Entry>, sender: Conn, down: set<Conn>): Fanout
    decreases |clients|
  {
    if clients == [] then Fanout([], [], [])
    else
      var e := clients[0];
      var w := Corrected(clients[1..], sender, down);
      if e.conn == sender then Fanout([e] + w.clients, w.delivered, w.closed)
      else if e.conn !in down then Fanout([e] + w.clients, [e] + w.delivered, w.closed)
      else Fanout(w.clients, w.delivered, [e] + w.closed)
  }

  /** Which broadcast the relay runs: the source's loop or the corrected one. */
  datatype Policy = AsWritten | Fixed

  function Fan(p: Policy, clients: seq<Entry>, sender: Conn, down: set<Conn>): Fanout
  {
    match p
    case AsWritten => BroadcastMessage(clients, sender, down)
    case Fixed => Corrected(clients, sender, down)
  }

  /** Every entry is either still registered or was dropped; nothing else happened to the registry. */
  ghost predicate Accounted(before: seq<Entry>, sender: Conn, down: set<Conn>, f: Fanout)
  {
    && multiset(f.clients) + multiset(f.closed) == multiset(before)
    && IsSubseq(f.clients, before)
    && (forall e | e in f.delivered :: e in before && e.conn != sender && e.conn !in down)
    && (forall e | e in f.closed :: e.conn != sender && e.conn in down)
  }

  /** The guarantees shared by both policies. */
  ghost predicate Sound(before: seq<Entry>, sender: Conn, down: set<Conn>, f: Fanout)
  {
    && Accounted(before, sender, down, f)
    && |f.clients| == |before| - |f.closed|
    && (forall e | e in f.closed :: e in before)
    && (forall e | e in before && e.conn == sender :: e in f.clients)
    && (Unique(before) ==> Unique(f.clients) && Conns(f.clients) !! Conns(f.closed))
  }

  lemma AccountedIsSound(before: seq<Entry>, sender: Conn, down: set<Conn>, f: Fanout)
    requires Accounted(before, sender, down, f)
    ensures Sound(before, sender, down, f)
  {
    assert |multiset(f.clients)| + |multiset(f.closed)| == |multiset(before)|;
    forall e | e in f.closed
      ensures e in before
    {
      assert e in multiset(before);
    }
    forall e | e in before && e.conn == sender
      ensures e in f.clients
    {
      assert multiset(f.clients)[e] + multiset(f.closed)[e] == multiset(before)[e];
      assert multiset(f.closed)[e] == 0;
    }
    if Unique(before) {
      assert multiset(f.clients + f.closed) == multiset(before);
      UniquePermutation(f.clients + f.closed, before);
      UniqueSplit(f.clients, f.closed);
    }
  }

  lemma {:induction false} IterateAccounted(before: seq<Entry>, clients: seq<Entry>, i: nat, sender: Conn,
                                            down: set<Conn>, delivered: seq<Entry>, closed: seq<Entry>)
    requires Accounted(before, sender, down, Fanout(clients, delivered, closed))
    ensures Accounted(before, sender, down, Iterate(clients, i, sender, down, delivered, closed))
    decreases |clients| - i
  {
    if i < |clients| {
      var e := clients[i];
      assert e in before by {
        assert multiset(clients)[e] + multiset(closed)[e] == multiset(before)[e];
      }
      if e.conn == sender {
        IterateAccounted(before, clients, i + 1, sender, down, delivered, closed);
      } else if e.conn !in down {
        assert forall x | x in delivered + [e] :: x in delivered || x == e;
        IterateAccounted(before, clients, i + 1, sender, down, delivered + [e], closed);
      } else {
        var rest := RemoveFirst(clients, e);
        RemoveFirstSubseq(clients, e);
        SubseqTrans(rest, clients, before);
        IterateAccounted(before, rest, i + 1, sender, down, delivered, closed + [e]);
      }
    }
  }

  /**
   * The as-written broadcast never sends to the sender, sends only to live
   * registered peers, drops and closes only failed peers, never drops the
   * sender, keeps the survivors in order, and keeps connections unique. A
   * failed peer right after a dropped one is skipped, so it is neither
   * dropped nor closed and stays registered (`BroadcastSkipsFailingNeighbour`).
   */
  lemma BroadcastSound(clients: seq<Entry>, sender: Conn, down: set<Conn>)
    ensures Sound(clients, sender, down, BroadcastMessage(clients, sender, down))
  {
    SubseqRefl(clients);
    IterateAccounted(clients, clients, 0, sender, down, [], []);
    AccountedIsSound(clients, sender, down, BroadcastMessage(clients, sender, down));
  }

  lemma {:induction false} IterateQuiet(clients: seq<Entry>, i: nat, sender: Conn, down: set<Conn>,
                                        delivered: seq<Entry>, closed: seq<Entry>)
    requires Quiet(clients, sender, down)
    requires i <= |clients|
    ensures Iterate(clients, i, sender, down, delivered, closed)
         == Fanout(clients, delivered + Recipients(clients[i..], sender), closed)
    decreases |clients| - i
  {
    if i < |clients| {
      assert clients[i..][1..] == clients[i + 1..];
      var e := clients[i];
      if e.conn == sender {
        IterateQuiet(clients, i + 1, sender, down, delivered, closed);
      } else {
        IterateQuiet(clients, i + 1, sender, down, delivered + [e], closed);
      }
    }
  }

  /** Without failed sends every entry but the sender's gets the message once per occurrence, and the registry is untouched. */
  lemma BroadcastWithoutFailures(clients: seq<Entry>, sender: Conn, down: set<Conn>)
    requires Quiet(clients, sender, down)
    ensures BroadcastMessage(clients, sender, down) == Fanout(clients, Recipients(clients, sender), [])
  {
    IterateQuiet(clients, 0, sender, down, [], []);
    assert clients[0..] == clients;
  }

  /** In a registry with distinct connections, `list.remove(clients[i])` deletes position `i` and keeps it unique. */
  lemma DropUnique(clients: seq<Entry>, i: nat)
    requires Unique(clients)
    requires i < |clients|
    ensures RemoveFirst(clients, clients[i]) == clients[..i] + clients[i + 1..]
    ensures Unique(clients[..i] + clients[i + 1..])
  {
    var e := clients[i];
    forall k | 0 <= k < i
      ensures clients[..i][k] != e
    {
      assert clients[k].conn != clients[i].conn;
    }
    RemoveFirstAt(clients, i);
    var rest := clients[..i] + clients[i + 1..];
    assert clients == clients[..i] + [e] + clients[i + 1..];
    assert multiset(rest + [e]) == multiset(clients);
    UniquePermutation(rest + [e], clients);
    UniqueSplit(rest, [e]);
  }

  lemma {:induction false} IterateWalk(clients: seq<Entry>, i: nat, sender: Conn, down: set<Conn>,
                                       delivered: seq<Entry>, closed: seq<Entry>)
    requires Unique(clients)
    requires i <= |clients|
    ensures var w := Walk(clients[i..], sender, down);
      Iterate(clients, i, sender, down, delivered, closed)
      == Fanout(clients[..i] + w.clients, delivered + w.delivered, closed + w.closed)
    decreases |clients| - i, 1
  {
    if i == |clients| {
      assert clients[..i] == clients;
      assert clients[i..] == [];
    } else {
      var e := clients[i];
      if e.conn == sender || e.conn !in down {
        var tail := clients[i..];
        assert tail[0] == e && tail[1..] == clients[i + 1..];
        assert clients[..i + 1] == clients[..i] + [e];
        var w := Walk(clients[i + 1..], sender, down);
        var d := if e.conn == sender then delivered else delivered + [e];
        assert Iterate(clients, i, sender, down, delivered, closed) == Iterate(clients, i + 1, sender, down, d, closed);
        IterateWalk(clients, i + 1, sender, down, d, closed);
        Assoc(clients[..i], [e], w.clients);
        Assoc(delivered, [e], w.delivered);
      } else {
        IterateWalkDrop(clients, i, sender, down, delivered, closed);
      }
    }
  }

  /** The step of `IterateWalk` where the send to `clients[i]` fails. */
  lemma {:induction false} IterateWalkDrop(clients: seq<Entry>, i: nat, sender: Conn, down: set<Conn>,
                                           delivered: seq<Entry>, closed: seq<Entry>)
    requires Unique(clients)
    requires i < |clients| && clients[i].conn != sender && clients[i].conn in down
    ensures var w := Walk(clients[i..], sender, down);
      Iterate(clients, i, sender, down, delivered, closed)
      == Fanout(clients[..i] + w.clients, delivered + w.delivered, closed + w.closed)
    decreases |clients| - i, 0
  {
    var e := clients[i];
    var rest := clients[..i] + clients[i + 1..];
    var tail := clients[i..];
    DropUnique(clients, i);
    IterateDropStep(clients, i, sender, down, delivered, closed);
    if i + 1 < |clients| {
      var w := Walk(tail[2..], sender, down);
      WalkDropStep(tail, sender, down);
      DropSlices(clients, i);
      assert Walk(rest[i + 1..], sender, down) == w;
      IterateWalk(rest, i + 1, sender, down, delivered, closed + [e]);
      Assoc(clients[..i], [tail[1]], w.clients);
      Assoc(closed, [e], w.closed);
    } else {
      assert tail == [e];
      assert rest == clients[..i];
    }
  }

  lemma IterateDropStep(clients: seq<Entry>, i: nat, sender: Conn, down: set<Conn>,
                        delivered: seq<Entry>, closed: seq<Entry>)
    requires i < |clients| && clients[i].conn != sender && clients[i].conn in down
    requires RemoveFirst(clients, clients[i]) == clients[..i] + clients[i + 1..]
    ensures Iterate(clients, i, sender, down, delivered, closed)
         == Iterate(clients[..i] + clients[i + 1..], i + 1, sender, down, delivered, closed + [clients[i]])
  {
  }

  lemma WalkDropStep(tail: seq<Entry>, sender: Conn, down: set<Conn>)
    requires |tail| >= 2 && tail[0].conn != sender && tail[0].conn in down
    ensures var w := Walk(tail[2..], sender, down);
      Walk(tail, sender, down) == Fanout([tail[1]] + w.clients, w.delivered, [tail[0]] + w.closed)
  {
  }

  lemma DropSlices(clients: seq<Entry>, i: nat)
    requires i + 1 < |clients|
    ensures clients[i..][2..] == (clients[..i] + clients[i + 1..])[i + 1..]
    ensures (clients[..i] + clients[i + 1..])[..i + 1] == clients[..i] + [clients[i..][1]]
  {
  }

  /** On a registry with distinct connections the Python loop is the front-to-back walk. */
  lemma BroadcastIsWalk(clients: seq<Entry>, sender: Conn, down: set<Conn>)
    requires Unique(clients)
    ensures BroadcastMessage(clients, sender, down) == Walk(clients, sender, down)
  {
    IterateWalk(clients, 0, sender, down, [], []);
    assert clients[0..] == clients;
    assert clients[..0] == [];
  }

  /** A walk only sends to entries it was given. */
  lemma {:induction false} WalkDeliversFromInput(clients: seq<Entry>, sender: Conn, down: set<Conn>)
    ensures forall e | e in Walk(clients, sender, down).delivered :: e in clients
    decreases |clients|
  {
    if clients != [] {
      var e := clients[0];
      if e.conn == sender || e.conn !in down {
        WalkDeliversFromInput(clients[1..], sender, down);
      } else if |clients| > 1 {
        WalkDeliversFromInput(clients[2..], sender, down);
      }
    }
  }

  /** Over a stretch `clients[j..i]` where no send fails, the loop only collects recipients. */
  lemma {:induction false} IterateQuietPrefix(clients: seq<Entry>, j: nat, i: nat, sender: Conn, down: set<Conn>,
                                              delivered: seq<Entry>, closed: seq<Entry>)
    requires j <= i <= |clients|
    requires forall k | j <= k < i :: clients[k].conn == sender || clients[k].conn !in down
    ensures Iterate(clients, j, sender, down, delivered, closed)
         == Iterate(clients, i, sender, down, delivered + Recipients(clients[j..i], sender), closed)
    decreases i - j
  {
    if j == i {
      assert clients[j..i] == [];
      assert delivered + [] == delivered;
    } else {
      var e := clients[j];
      var d := if e.conn == sender then delivered else delivered + [e];
      var rest := Recipients(clients[j + 1..i], sender);
      RecipientsStep(clients, j, i, sender);
      IterateLiveStep(clients, j, sender, down, delivered, closed);
      IterateQuietPrefix(clients, j + 1, i, sender, down, d, closed);
      if e.conn == sender {
        assert [] + rest == rest;
      } else {
        Assoc(delivered, [e], rest);
      }
    }
  }

  lemma RecipientsStep(clients: seq<Entry>, j: nat, i: nat, sender: Conn)
    requires j < i <= |clients|
    ensures Recipients(clients[j..i], sender)
         == (if clients[j].conn == sender then [] else [clients[j]]) + Recipients(clients[j + 1..i], sender)
  {
    assert clients[j..i][0] == clients[j] && clients[j..i][1..] == clients[j + 1..i];
  }

  lemma IterateLiveStep(clients: seq<Entry>, j: nat, sender: Conn, down: set<Conn>, delivered: seq<Entry>, closed: seq<Entry>)
    requires j < |clients| && (clients[j].conn == sender || clients[j].conn !in down)
    ensures Iterate(clients, j, sender, down, delivered, closed)
         == Iterate(clients, j + 1, sender, down, if clients[j].conn == sender then delivered else delivered + [clients[j]], closed)
  {
  }

  /**
   * The entry right after the first failed one is skipped: it stays
   * registered but never gets the message, although its send would
   * succeed; the corrected broadcast does send to it.
   */
  lemma BroadcastSkipsSuccessor(clients: seq<Entry>, i: nat, sender: Conn, down: set<Conn>)
    requires Unique(clients)
    requires i + 1 < |clients|
    requires Quiet(clients[..i], sender, down)
    requires clients[i].conn != sender && clients[i].conn in down
    requires clients[i + 1].conn != sender && clients[i + 1].conn !in down
    ensures var f := BroadcastMessage(clients, sender, down);
      clients[i + 1] in f.clients && clients[i + 1] !in f.delivered
    ensures clients[i + 1] in Corrected(clients, sender, down).delivered
  {
    var y := clients[i + 1];
    var r := Recipients(clients[..i], sender);
    var w2 := Walk(clients[i + 2..], sender, down);
    BroadcastAfterFirstFailure(clients, i, sender, down);
    assert y in clients[..i] + [y] + w2.clients;
    WalkDeliversFromInput(clients[i + 2..], sender, down);
    assert y !in clients[i + 2..] by {
      forall k | i + 2 <= k < |clients|
        ensures clients[k] != y
      {
        assert clients[k].conn != clients[i + 1].conn;
      }
    }
    assert y !in r by {
      RecipientsCount(clients[..i], sender);
      forall k | 0 <= k < i
        ensures clients[..i][k] != y
      {
        assert clients[k].conn != clients[i + 1].conn;
      }
      assert multiset(clients[..i])[y] == 0;
    }
    assert y !in r + w2.delivered;
    CorrectedDeliversToEveryLivePeer(clients, sender, down);
    assert multiset(clients)[y] > 0;
  }

  /** The loop up to and just past the first failed entry: recipients before it, its successor skipped, then the walk of the rest. */
  lemma BroadcastAfterFirstFailure(clients: seq<Entry>, i: nat, sender: Conn, down: set<Conn>)
    requires Unique(clients)
    requires i + 1 < |clients|
    requires Quiet(clients[..i], sender, down)
    requires clients[i].conn != sender && clients[i].conn in down
    ensures var w2 := Walk(clients[i + 2..], sender, down);
      BroadcastMessage(clients, sender, down)
      == Fanout(clients[..i] + [clients[i + 1]] + w2.clients, Recipients(clients[..i], sender) + w2.delivered, [clients[i]] + w2.closed)
  {
    var r := Recipients(clients[..i], sender);
    assert clients[0..i] == clients[..i];
    forall k | 0 <= k < i
      ensures clients[k].conn == sender || clients[k].conn !in down
    {
      assert clients[k] in clients[..i];
    }
    IterateQuietPrefix(clients, 0, i, sender, down, [], []);
    assert [] + r == r;
    IterateWalk(clients, i, sender, down, r, []);
    var tail := clients[i..];
    WalkDropStep(tail, sender, down);
    assert tail[2..] == clients[i + 2..];
    var w2 := Walk(clients[i + 2..], sender, down);
    Assoc(clients[..i], [clients[i + 1]], w2.clients);
    assert [] + ([clients[i]] + w2.closed) == [clients[i]] + w2.closed;
  }

  /**
   * The entry right after a failed one is skipped: with `a` failing and `b`
   * live, `b` stays registered but never gets the message.
   */
  lemma BroadcastSkipsNeighbour(a: Entry, b: Entry, sender: Conn, down: set<Conn>)
    requires a.conn != sender && a.conn in down
    requires b.conn != sender && b.conn !in down
    ensures BroadcastMessage([a, b], sender, down) == Fanout([b], [], [a])
    ensures Corrected([a, b], sender, down) == Fanout([b], [b], [a])
  {
    assert IndexOf([a, b], a) == 0;
    assert RemoveFirst([a, b], a) == [b];
    assert Iterate([a, b], 0, sender, down, [], []) == Iterate([b], 1, sender, down, [], [a]);
    assert [a, b][1..] == [b] && [b][1..] == [];
    assert Corrected([b], sender, down) == Fanout([b], [b], []);
  }
  /**
   * Two failing peers in a row: the first is dropped and closed, the second
   * is skipped, so it stays registered and open, though its send would fail.
   */
  lemma BroadcastSkipsFailingNeighbour(a: Entry, b: Entry, sender: Conn, down: set<Conn>)
    requires a.conn != sender && a.conn in down
    requires b.conn != sender && b.conn in down
    ensures BroadcastMessage([a, b], sender, down) == Fanout([b], [], [a])
    ensures Corrected([a, b], sender, down) == Fanout([], [], [a, b])
  {
    assert IndexOf([a, b], a) == 0;
    assert RemoveFirst([a, b], a) == [b];
    assert Iterate([a, b], 0, sender, down, [], []) == Iterate([b], 1, sender, down, [], [a]);
    assert [a, b][1..] == [b] && [b][1..] == [];
    assert Corrected([b], sender, down) == Fanout([], [], [b]);
  }


  /**
   * The corrected broadcast sends to every live peer once per occurrence and
   * drops exactly the failed peers, whatever their position.
   */
  lemma {:induction false} CorrectedDeliversToEveryLivePeer(clients: seq<Entry>, sender: Conn, down: set<Conn>)
    ensures var r := Corrected(clients, sender, down);
      && (forall e :: multiset(r.delivered)[e] == if e.conn != sender && e.conn !in down then multiset(clients)[e] else 0)
      && (forall e :: multiset(r.closed)[e] == if e.conn != sender && e.conn in down then multiset(clients)[e] else 0)
    decreases |clients|
  {
    if clients != [] {
      CorrectedDeliversToEveryLivePeer(clients[1..], sender, down);
      assert clients == [clients[0]] + clients[1..];
    }
  }

  lemma {:induction false} CorrectedAccounted(clients: seq<Entry>, sender: Conn, down: set<Conn>)
    ensures Accounted(clients, sender, down, Corrected(clients, sender, down))
    decreases |clients|
  {
    if clients != [] {
      var e := clients[0];
      var w := Corrected(clients[1..], sender, down);
      CorrectedAccounted(clients[1..], sender, down);
      assert clients == [e] + clients[1..];
      if e.conn == sender || e.conn !in down {
        assert ([e] + w.clients)[1..] == w.clients;
        assert IsSubseq([e] + w.clients, clients);
        assert forall x | x in [e] + w.delivered :: x == e || x in w.delivered;
      } else {
        assert IsSubseq(w.clients, clients);
        assert forall x | x in [e] + w.closed :: x == e || x in w.closed;
      }
    }
  }

  /** Both policies keep the shared guarantees, and agree when no send fails. */
  lemma FanSound(p: Policy, clients: seq<Entry>, sender: Conn, down: set<Conn>)
    ensures Sound(clients, sender, down, Fan(p, clients, sender, down))
    ensures Quiet(clients, sender, down) ==>
      Fan(p, clients, sender, down) == Fanout(clients, Recipients(clients, sender), [])
  {
    if p.AsWritten? {
      BroadcastSound(clients, sender, down);
      if Quiet(clients, sender, down) {
        BroadcastWithoutFailures(clients, sender, down);
      }
    } else {
      CorrectedAccounted(clients, sender, down);
      AccountedIsSound(clients, sender, down, Corrected(clients, sender, down));
      if Quiet(clients, sender, down) {
        CorrectedQuiet(clients, sender, down);
      }
    }
  }

  lemma {:induction false} CorrectedQuiet(clients: seq<Entry>, sender: Conn, down: set<Conn>)
    requires Quiet(clients, sender, down)
    ensures Corrected(clients, sender, down) == Fanout(clients, Recipients(clients, sender), [])
    decreases |clients|
  {
    if clients != [] {
      CorrectedQuiet(clients[1..], sender, down);
      assert clients == [clients[0]] + clients[1..];
    }
  }
}

=== FILE: file_server.dfy ===
/**
 * The file server of socket_server.py, one connection at a time: the
 * filename header, the two opens of the sanitised save path, and the
 * receive-until-empty loop that writes the content.
 *
 * The file system is a map from path strings to nodes; a read is either a
 * chunk of bytes (`recv` returning, possibly empty) or `recv` raising.
 */
module FileServer {
  import opened Seqs
  import opened Paths

  type Byte = bv8
  type Chunk = seq<Byte>

  /** What one `conn.recv(4096)` of the content loop yields. */
  datatype Read = Got(data: Chunk) | Raised

  /** The loop stops on an empty chunk (`if not bytes_read: break`) or when `recv` raises. */
  predicate Ends(r: Read)
  {
    r.Raised? || r.data == []
  }

  /** The number of chunks written before the loop stops: every earlier read was a non-empty chunk, and the read at that position (if any) ends the loop. */
  function Stop(stream: seq<Read>): (k: nat)
    ensures k <= |stream|
    ensures forall j | 0 <= j < k :: stream[j].Got? && stream[j].data != []
    ensures k < |stream| ==> Ends(stream[k])
  {
    if stream == [] || Ends(stream[0]) then 0 else 1 + Stop(stream[1..])
  }

  /** The bytes a read delivers. */
  function Bytes(r: Read): Chunk
  {
    if r.Got? then r.data else []
  }

  /** The chunks a run of reads delivers, in order. */
  function Chunks(stream: seq<Read>): seq<Chunk>
  {
    seq(|stream|, j requires 0 <= j < |stream| => Bytes(stream[j]))
  }

  /** Successive `f.write` calls: the chunks appended one after another. */
  function Concat(chunks: seq<Chunk>): Chunk
  {
    if chunks == [] then [] else Concat(chunks[..|chunks| - 1]) + chunks[|chunks| - 1]
  }

  /** The file content: every chunk received before the first empty one (or the first failed `recv`). */
  function ReceivedContent(stream: seq<Read>): Chunk
  {
    Concat(Chunks(stream[..Stop(stream)]))
  }

  /** How the content loop ended: the peer closed, `recv` raised, or it is still waiting for data. */
  datatype End = Closed | Aborted | Waiting

  function Ending(stream: seq<Read>): End
  {
    var k := Stop(stream);
    if k == |stream| then Waiting else if stream[k].Raised? then Aborted else Closed
  }

  /** Concatenation distributes over splitting the chunk list. */
  lemma {:induction false} ConcatAppend(a: seq<Chunk>, b: seq<Chunk>)
    ensures Concat(a + b) == Concat(a) + Concat(b)
    decreases |b|
  {
    if b == [] {
      assert a + b == a;
    } else {
      var b' := b[..|b| - 1];
      assert (a + b)[..|a + b| - 1] == a + b';
      ConcatAppend(a, b');
      Assoc(Concat(a), Concat(b'), b[|b| - 1]);
    }
  }

  lemma ChunksAppend(a: seq<Read>, b: seq<Read>)
    ensures Chunks(a + b) == Chunks(a) + Chunks(b)
  {
  }

  /**
   * The `while True` loop of socket_server.py: each non-empty chunk is
   * written, and the loop breaks on the first empty chunk or failed `recv`.
   */
  method ReceiveLoop(stream: seq<Read>) returns (content: Chunk, count: nat, end: End)
    ensures count <= |stream|
    ensures forall j | 0 <= j < count :: stream[j].Got? && stream[j].data != []
    ensures count < |stream| ==> Ends(stream[count])
    ensures content == Concat(Chunks(stream[..count]))
    ensures end == Waiting <==> count == |stream|
    ensures end == Aborted <==> count < |stream| && stream[count].Raised?
    ensures content == ReceivedContent(stream) && end == Ending(stream)
  {
    content := [];
    count := 0;
    while count < |stream| && !Ends(stream[count])
      invariant count <= |stream|
      invariant forall j | 0 <= j < count :: stream[j].Got? && stream[j].data != []
      invariant content == Concat(Chunks(stream[..count]))
    {
      assert stream[..count + 1] == stream[..count] + [stream[count]];
      ChunksAppend(stream[..count], [stream[count]]);
      content := content + stream[count].data;
      count := count + 1;
    }
    end := if count == |stream| then Waiting else if stream[count].Raised? then Aborted else Closed;
    StopUnique(stream, count);
  }

  /** The two facts in `Stop`'s contract pin it down. */
  lemma StopUnique(stream: seq<Read>, k: nat)
    requires k <= |stream|
    requires forall j | 0 <= j < k :: stream[j].Got? && stream[j].data != []
    requires k < |stream| ==> Ends(stream[k])
    ensures Stop(stream) == k
  {
  }

  /** Once the loop has stopped, later reads never happen: they change neither the content nor the ending. */
  lemma {:induction false} ReceivedContentIgnoresLater(stream: seq<Read>, more: seq<Read>)
    requires Stop(stream) < |stream|
    ensures ReceivedContent(stream + more) == ReceivedContent(stream)
    ensures Ending(stream + more) == Ending(stream)
  {
    var k := Stop(stream);
    var all := stream + more;
    forall j | 0 <= j < k
      ensures all[j].Got? && all[j].data != []
    {
      assert all[j] == stream[j];
    }
    assert all[k] == stream[k];
    StopUnique(all, k);
    assert all[..k] == stream[..k];
  }

  /** While the loop is still waiting, the content written so far is kept and further chunks are appended after it. */
  lemma {:induction false} ReceivedContentGrows(stream: seq<Read>, more: seq<Read>)
    requires Stop(stream) == |stream|
    ensures ReceivedContent(stream + more) == ReceivedContent(stream) + ReceivedContent(more)
  {
    var k := Stop(more);
    var front := more[..k];
    StopAppend(stream, more);
    assert (stream + more)[..|stream| + k] == stream + front;
    assert stream[..|stream|] == stream;
    var cs, cf := Chunks(stream), Chunks(front);
    ChunksAppend(stream, front);
    ConcatAppend(cs, cf);
  }

  /** The loop runs through a stream it did not stop in and carries on into what follows. */
  lemma StopAppend(stream: seq<Read>, more: seq<Read>)
    requires Stop(stream) == |stream|
    ensures Stop(stream + more) == |stream| + Stop(more)
  {
    var k := Stop(more);
    var all := stream + more;
    forall j | 0 <= j < |stream| + k
      ensures all[j].Got? && all[j].data != []
    {
      if j < |stream| {
        assert all[j] == stream[j];
      } else {
        assert all[j] == more[j - |stream|];
      }
    }
    if |stream| + k < |all| {
      assert all[|stream| + k] == more[k];
    }
    StopUnique(all, |stream| + k);
  }

  /** A node of the file system. */
  datatype Node = File(bytes: Chunk) | Dir

  type Fs = map<string, Node>

  /** A path whose last component is empty, `.` or `..` names a directory, which `open` for writing refuses. */
  predicate NamesDirectory(path: string)
  {
    var b := Basename(path);
    b == "" || b == "." || b == ".."
  }

  /** The directory holding `path` exists; a path with no `/` (or only a leading one) lives in the working or root directory, which always exists. */
  predicate ParentExists(fs: Fs, path: string)
  {
    var i := RFind(path, '/');
    i <= 0 || (path[..i] in fs && fs[path[..i]].Dir?)
  }

  /** The number of bytes `c` takes in UTF-8, the encoding a path is handed to the operating system in. */
  function Utf8Width(c: char): nat
  {
    var n := c as int;
    if n < 0x80 then 1 else if n < 0x800 then 2 else if n < 0x1_0000 then 3 else 4
  }

  /** The length in bytes of the UTF-8 encoding of `s`. */
  function Utf8Length(s: string): nat
  {
    if s == [] then 0 else Utf8Width(s[0]) + Utf8Length(s[1..])
  }

  /** Every character takes at least one and at most four bytes. */
  lemma {:induction false} Utf8LengthBounds(s: string)
    ensures |s| <= Utf8Length(s) <= 4 * |s|
    decreases |s|
  {
    if s != [] {
      Utf8LengthBounds(s[1..]);
    }
  }

  /** `NAME_MAX`: the longest last component, in bytes, that `open` accepts. */
  const NameMax: nat := 255

  /**
   * `open` raises before it looks at the file system: `ValueError` for an
   * embedded NUL, and `OSError` (`ENAMETOOLONG`) for a last component
   * longer than `NameMax` bytes.
   */
  predicate Unopenable(path: string)
  {
    '\0' in path || Utf8Length(Basename(path)) > NameMax
  }

  /** `open(path, 'w')` or `open(path, 'wb')`: creates or truncates a file, or raises (`None`). */
  function Open(fs: Fs, path: string): Option<Fs>
  {
    if Unopenable(path) || NamesDirectory(path) || (path in fs && fs[path].Dir?) || !ParentExists(fs, path) then None
    else Some(fs[path := File([])])
  }

  /** Opening a path that has just been opened succeeds again, and truncating an empty file changes nothing. */
  lemma OpenAgain(fs: Fs, path: string)
    requires Open(fs, path).Some?
    ensures Open(Open(fs, path).value, path) == Open(fs, path)
  {
    var fs1 := Open(fs, path).value;
    var i := RFind(path, '/');
    if i > 0 {
      assert path[..i] != path;
    }
    assert fs1[path := File([])] == fs1;
  }

  /** `if not os.path.exists(FILE_SAVE_DIR): os.makedirs(FILE_SAVE_DIR)`. */
  function Prepare(fs: Fs): (r: Fs)
    ensures SaveDir in r
    ensures SaveDir !in fs ==> r[SaveDir] == Dir
    ensures forall p | p in fs :: p in r && r[p] == fs[p]
    ensures forall p | p in r && p != SaveDir :: p in fs
  {
    if SaveDir in fs then fs else fs[SaveDir := Dir]
  }

  /** The outcome of the first `conn.recv(1024)` and its decoding: nothing, a failure, or the decoded name. */
  datatype Header = Nothing | Failure | Name(name: string)

  datatype Transfer =
    | NoFilename                  // empty first receive: `continue`
    | HeaderFailed                // the first `recv` or the decoding raised
    | OpenFailed(path: string)    // `open` raised
    | Received(path: string, end: End)

  datatype Served = Served(fs: Fs, transfer: Transfer)

  /** One connection of `start_server`, from the filename receive to the end of the `with conn` block. */
  function Serve(fs: Fs, header: Header, stream: seq<Read>): Served
  {
    match header
    case Nothing => Served(fs, NoFilename)
    case Failure => Served(fs, HeaderFailed)
    case Name(name) =>
      var path := SavePath(name);
      match Open(fs, path)
      case None => Served(fs, OpenFailed(path))
      case Some(fs1) =>
        match Open(fs1, path)
        case None => Served(fs1, OpenFailed(path))
        case Some(fs2) => Served(fs2[path := File(ReceivedContent(stream))], Received(path, Ending(stream)))
  }

  /**
   * Every connection ends in exactly one of four ways. Nothing but a
   * successful transfer touches the file system, and a successful one
   * writes the received bytes to the save path of the announced name and
   * leaves every other path as it was.
   */
  lemma ServeOutcome(fs: Fs, header: Header, stream: seq<Read>)
    ensures var r := Serve(fs, header, stream);
      && (r.transfer.NoFilename? <==> header.Nothing?)
      && (r.transfer.HeaderFailed? <==> header.Failure?)
      && (r.transfer.OpenFailed? ==> header.Name? && r.transfer.path == SavePath(header.name) && Open(fs, r.transfer.path).None?)
      && (r.transfer.Received? ==> header.Name? && r.transfer.path == SavePath(header.name) && r.transfer.end == Ending(stream))
      && (header.Name? ==> (r.transfer.Received? <==> Open(fs, SavePath(header.name)).Some?))
      && (!r.transfer.Received? ==> r.fs == fs)
      && (r.transfer.Received? ==> r.fs == fs[r.transfer.path := File(ReceivedContent(stream))])
  {
    if header.Name? {
      var path := SavePath(header.name);
      if Open(fs, path).Some? {
        OpenAgain(fs, path);
        var fs1 := Open(fs, path).value;
        assert fs1[path := File(ReceivedContent(stream))] == fs[path := File(ReceivedContent(stream))];
      }
    }
  }

  /** `path` is a direct entry of `received_files`. */
  predicate InSaveDir(path: string)
  {
    |path| > |SaveDir| + 1 && path[..|SaveDir| + 1] == SaveDir + "/" && '/' !in path[|SaveDir| + 1..]
  }

  /** Every path a connection can write is a direct entry of `received_files`, whatever name the client sends. */
  lemma SavePathConfined(name: string)
    requires !NamesDirectory(SavePath(name))
    ensures InSaveDir(SavePath(name))
  {
    var path := SavePath(name);
    var tail := RStrip(Basename(name));
    SavePathShape(name);
    BasenameOfJoined(SaveDir, tail);
    assert path[|SaveDir| + 1..] == tail;
  }

  /** A connection never changes anything outside `received_files`, nor that directory itself. */
  lemma ServeConfined(fs: Fs, header: Header, stream: seq<Read>)
    ensures var r := Serve(fs, header, stream);
      forall p | !InSaveDir(p) :: (p in r.fs <==> p in fs) && (p in fs ==> r.fs[p] == fs[p])
  {
    ServeOutcome(fs, header, stream);
    var r := Serve(fs, header, stream);
    if r.transfer.Received? {
      assert Open(fs, SavePath(header.name)).Some?;
      SavePathConfined(header.name);
    }
  }

  /**
   * A name whose last component, once stripped, is empty, `.` or `..`
   * survives sanitisation but names a directory, so the open raises and
   * nothing is written.
   */
  lemma ServeRefusesDirectoryNames(fs: Fs, name: string, stream: seq<Read>)
    requires var t := RStrip(Basename(name)); t == "" || t == "." || t == ".."
    ensures Serve(fs, Name(name), stream) == Served(fs, OpenFailed(SaveDir + "/" + RStrip(Basename(name))))
  {
    SavePathShape(name);
    BasenameOfJoined(SaveDir, RStrip(Basename(name)));
  }

  /** `rstrip` never removes a NUL, which is not whitespace. */
  lemma NulSurvivesStrip(b: string)
    requires '\0' in b
    ensures '\0' in RStrip(b)
  {
    RStripSpec(b);
    var r := RStrip(b);
    var i :| 0 <= i < |b| && b[i] == '\0';
    assert !IsSpace(b[i]);
    assert r[i] == b[i];
  }

  /**
   * A name whose last component holds a NUL, or whose stripped last
   * component is longer than `NameMax` bytes, passes sanitisation, but
   * both opens raise, so nothing is written.
   */
  lemma ServeRefusesUnopenable(fs: Fs, name: string, stream: seq<Read>)
    requires '\0' in Basename(name) || Utf8Length(RStrip(Basename(name))) > NameMax
    ensures Serve(fs, Name(name), stream) == Served(fs, OpenFailed(SavePath(name)))
  {
    var t := RStrip(Basename(name));
    SavePathShape(name);
    BasenameOfJoined(SaveDir, t);
    if '\0' in Basename(name) {
      SavePathHoldsNul(name);
    }
    assert Unopenable(SavePath(name));
  }

  /** A NUL in the last component reaches the save path. */
  lemma SavePathHoldsNul(name: string)
    requires '\0' in Basename(name)
    ensures '\0' in SavePath(name)
  {
    var t := RStrip(Basename(name));
    SavePathShape(name);
    NulSurvivesStrip(Basename(name));
    var i :| 0 <= i < |t| && t[i] == '\0';
    assert SavePath(name)[|SaveDir| + 1 + i] == '\0';
  }

  /** `received_files` exists as a directory. */
  predicate Ready(fs: Fs)
  {
    SaveDir in fs && fs[SaveDir].Dir?
  }

  /**
   * What the file client sends, its file's basename followed by a newline,
   * lands under that exact name in a ready `received_files`, holding
   * exactly the bytes received, unless a directory already has that name.
   * The name must be one `open` accepts: no NUL, at most `NameMax` bytes.
   */
  lemma ServeClientUpload(fs: Fs, name: string, stream: seq<Read>)
    requires Ready(fs)
    requires name != [] && '/' !in name && !IsSpace(name[|name| - 1]) && name != "." && name != ".."
    requires '\0' !in name && Utf8Length(name) <= NameMax
    requires var path := SaveDir + "/" + name; !(path in fs && fs[path].Dir?)
    ensures var path := SaveDir + "/" + name;
      Serve(fs, Name(name + "\n"), stream) == Served(fs[path := File(ReceivedContent(stream))], Received(path, Ending(stream)))
  {
    SavePathOfClientName(name);
    ClientOpen(fs, name);
    ServeOutcome(fs, Name(name + "\n"), stream);
  }

  /** In a ready `received_files`, `open` accepts the path of a plain name that no directory holds. */
  lemma ClientOpen(fs: Fs, name: string)
    requires Ready(fs)
    requires name != [] && '/' !in name && name != "." && name != ".."
    requires '\0' !in name && Utf8Length(name) <= NameMax
    requires var path := SaveDir + "/" + name; !(path in fs && fs[path].Dir?)
    ensures Open(fs, SaveDir + "/" + name).Some?
  {
    var path := SaveDir + "/" + name;
    BasenameOfJoined(SaveDir, name);
    RFindLast(SaveDir, name);
    assert path[..|SaveDir|] == SaveDir;
    ClientPathOpenable(name);
  }

  /** A name without `/` or NUL and of at most `NameMax` bytes gives a path `open` does not refuse outright. */
  lemma ClientPathOpenable(name: string)
    requires '/' !in name && '\0' !in name && Utf8Length(name) <= NameMax
    ensures !Unopenable(SaveDir + "/" + name)
  {
    var path := SaveDir + "/" + name;
    BasenameOfJoined(SaveDir, name);
    assert forall c | c in path :: c in SaveDir || c == '/' || c in name;
  }

  /** The last `/` of `dir/name` is the one before `name`. */
  lemma RFindLast(dir: string, name: string)
    requires '/' !in name
    ensures RFind(dir + "/" + name, '/') == |dir|
  {
    var p := dir + "/" + name;
    assert p[|dir| + 1..] == name;
    RFindBefore(p, |dir|);
  }

  lemma RFindBefore(p: string, k: nat)
    requires k < |p| && p[k] == '/' && '/' !in p[k + 1..]
    ensures RFind(p, '/') == k
  {
    forall j | k < j < |p|
      ensures p[j] != '/'
    {
      assert p[j] == p[k + 1..][j - k - 1];
    }
    RFindUnique(p, '/', k);
  }

  /** `start_server`: prepare the directory, then serve the connections one after another. */
  function ServeAll(fs: Fs, sessions: seq<(Header, seq<Read>)>): (r: (Fs, seq<Transfer>))
    ensures |r.1| == |sessions|
    decreases |sessions|
  {
    if sessions == [] then (fs, [])
    else
      var s := Serve(fs, sessions[0].0, sessions[0].1);
      var rest := ServeAll(s.fs, sessions[1..]);
      (rest.0, [s.transfer] + rest.1)
  }

  /** Serving `a` and then `b` is serving `a + b`: the second batch starts on the file system the first one left. */
  lemma {:induction false} ServeAllAppend(fs: Fs, a: seq<(Header, seq<Read>)>, b: seq<(Header, seq<Read>)>)
    ensures var ra := ServeAll(fs, a);
      var rb := ServeAll(ra.0, b);
      ServeAll(fs, a + b) == (rb.0, ra.1 + rb.1)
    decreases |a|
  {
    if a == [] {
      assert a + b == b;
      assert ServeAll(fs, a) == (fs, []);
      assert [] + ServeAll(fs, b).1 == ServeAll(fs, b).1;
    } else {
      assert (a + b)[0] == a[0];
      assert (a + b)[1..] == a[1..] + b;
      var s := Serve(fs, a[0].0, a[0].1);
      ServeAllAppend(s.fs, a[1..], b);
      var ra := ServeAll(s.fs, a[1..]);
      Assoc([s.transfer], ra.1, ServeAll(ra.0, b).1);
    }
  }

  /**
   * The connections are served one after another: the outcome recorded for
   * connection `k` is that of serving it on the file system left by the
   * `k` connections before it.
   */
  lemma ServeAllEach(fs: Fs, sessions: seq<(Header, seq<Read>)>, k: nat)
    requires k < |sessions|
    ensures ServeAll(fs, sessions).1[k] == Serve(ServeAll(fs, sessions[..k]).0, sessions[k].0, sessions[k].1).transfer
  {
    assert sessions[..k] + sessions[k..] == sessions;
    ServeAllAppend(fs, sessions[..k], sessions[k..]);
    assert sessions[k..][0] == sessions[k];
  }

  /** After the last connection the file system is what serving it left. */
  lemma ServeAllLast(fs: Fs, sessions: seq<(Header, seq<Read>)>, last: (Header, seq<Read>))
    ensures ServeAll(fs, sessions + [last]).0 == Serve(ServeAll(fs, sessions).0, last.0, last.1).fs
  {
    ServeAllAppend(fs, sessions, [last]);
    ServeAllOne(ServeAll(fs, sessions).0, last);
  }

  function StartServer(fs: Fs, sessions: seq<(Header, seq<Read>)>): (Fs, seq<Transfer>)
  {
    ServeAll(Prepare(fs), sessions)
  }

  /**
   * However many clients connect and whatever they send, the server only
   * ever creates `received_files` and writes files directly inside it; a
   * `received_files` that it finds or creates as a directory stays one.
   */
  lemma {:induction false} ServeAllConfined(fs: Fs, sessions: seq<(Header, seq<Read>)>)
    ensures var r := ServeAll(fs, sessions).0;
      forall p | !InSaveDir(p) :: (p in r <==> p in fs) && (p in fs ==> r[p] == fs[p])
    decreases |sessions|
  {
    if sessions != [] {
      var s := Serve(fs, sessions[0].0, sessions[0].1);
      ServeConfined(fs, sessions[0].0, sessions[0].1);
      ServeAllConfined(s.fs, sessions[1..]);
    }
  }

  lemma StartServerConfined(fs: Fs, sessions: seq<(Header, seq<Read>)>)
    ensures var r := StartServer(fs, sessions).0;
      && Ready(r) == (SaveDir !in fs || fs[SaveDir].Dir?)
      && forall p | p != SaveDir && !InSaveDir(p) :: (p in r <==> p in fs) && (p in fs ==> r[p] == fs[p])
  {
    ServeAllConfined(Prepare(fs), sessions);
    assert !InSaveDir(SaveDir);
  }

  /** A `received_files` that is a plain file makes every open fail, so nothing is ever saved. */
  lemma BlockedSaveDir(fs: Fs, header: Header, stream: seq<Read>)
    requires SaveDir in fs && fs[SaveDir].File?
    ensures Serve(fs, header, stream).fs == fs
    ensures !Serve(fs, header, stream).transfer.Received?
  {
    if header.Name? {
      var path := SavePath(header.name);
      SavePathShape(header.name);
      var t := RStrip(Basename(header.name));
      RFindLast(SaveDir, t);
      assert path[..|SaveDir|] == SaveDir;
    }
    ServeOutcome(fs, header, stream);
  }

  /** Uploading `report.txt` in two chunks to a fresh server. */
  lemma UploadScenario(name: string, a: Chunk, b: Chunk)
    requires name == "report.txt" && a == [0x61, 0x62, 0x63] && b == [0x64, 0x65]
    ensures StartServer(map[], [(Name(name + "\n"), [Got(a), Got(b), Got([])])])
      == (map[SaveDir := Dir, "received_files/report.txt" := File([0x61, 0x62, 0x63, 0x64, 0x65])], [Received("received_files/report.txt", Closed)])
  {
    ReportNameAccepted(name);
    ReportLiterals(name, a, b);
    UploadTwoChunks(name, a, b);
    StartFresh((Name(name + "\n"), [Got(a), Got(b), Got([])]));
    var path := SaveDir + "/" + name;
    assert map[SaveDir := Dir, path := File(a + b)]
      == map[SaveDir := Dir, "received_files/report.txt" := File([0x61, 0x62, 0x63, 0x64, 0x65])];
  }

  lemma ReportLiterals(name: string, a: Chunk, b: Chunk)
    requires name == "report.txt" && a == [0x61, 0x62, 0x63] && b == [0x64, 0x65]
    ensures name + "\n" == "report.txt\n"
    ensures SaveDir + "/" + name == "received_files/report.txt"
    ensures a + b == [0x61, 0x62, 0x63, 0x64, 0x65]
  {
  }

  /** A server started without `received_files` creates it and serves its first connection there. */
  lemma StartFresh(session: (Header, seq<Read>))
    ensures var s := Serve(map[SaveDir := Dir], session.0, session.1);
      StartServer(map[], [session]) == (s.fs, [s.transfer])
  {
    assert Prepare(map[]) == map[SaveDir := Dir];
    ServeAllOne(map[SaveDir := Dir], session);
  }

  /** `report.txt` is a name the client can send and `open` accepts. */
  lemma ReportNameAccepted(name: string)
    requires name == "report.txt"
    ensures name != [] && '/' !in name && !IsSpace(name[|name| - 1]) && name != "." && name != ".."
    ensures '\0' !in name && Utf8Length(name) <= NameMax
  {
    assert |name| == 10 && name[9] == 't';
    Utf8LengthBounds(name);
    LowerOrDot(name);
  }

  /** `report.txt`, made of lower-case letters and a dot, holds neither `/` nor NUL. */
  lemma LowerOrDot(name: string)
    requires name == "report.txt"
    ensures '/' !in name && '\0' !in name
  {
    forall i | 0 <= i < |name|
      ensures name[i] == '.' || 'a' <= name[i] <= 'z'
    {
    }
  }

  /** A fresh `received_files` receiving a name and two chunks holds exactly those chunks under that name. */
  lemma UploadTwoChunks(name: string, a: Chunk, b: Chunk)
    requires name != [] && '/' !in name && !IsSpace(name[|name| - 1]) && name != "." && name != ".."
    requires '\0' !in name && Utf8Length(name) <= NameMax
    requires a != [] && b != []
    ensures var path := SaveDir + "/" + name;
      Serve(map[SaveDir := Dir], Name(name + "\n"), [Got(a), Got(b), Got([])])
        == Served(map[SaveDir := Dir, path := File(a + b)], Received(path, Closed))
  {
    var path := SaveDir + "/" + name;
    assert |path| > |SaveDir|;
    ServeClientUpload(map[SaveDir := Dir], name, [Got(a), Got(b), Got([])]);
    TwoChunks(a, b);
  }

  lemma TwoChunks(a: Chunk, b: Chunk)
    requires a != [] && b != []
    ensures ReceivedContent([Got(a), Got(b), Got([])]) == a + b
    ensures Ending([Got(a), Got(b), Got([])]) == Closed
  {
    var stream := [Got(a), Got(b), Got([])];
    StopUnique(stream, 2);
    assert stream[..2] == [Got(a), Got(b)];
    var cs := Chunks(stream[..2]);
    assert cs == [a, b];
    assert cs[..1] == [a];
    assert Concat(cs[..1]) == a by {
      assert cs[..1][..0] == [];
    }
  }

  lemma ServeAllOne(fs: Fs, session: (Header, seq<Read>))
    ensures var s := Serve(fs, session.0, session.1);
      ServeAll(fs, [session]) == (s.fs, [s.transfer])
  {
    var s := Serve(fs, session.0, session.1);
    assert [session][1..] == [];
    assert ServeAll(s.fs, []) == (s.fs, []);
    assert [s.transfer] + [] == [s.transfer];
  }
}

=== FILE: paths.dfy ===
/**
 * The save-path computation of socket_server.py: the received file name is
 * reduced with `os.path.basename`, joined onto `FILE_SAVE_DIR` with
 * `os.path.join`, and the result is opened after `str.rstrip()`.
 *
 * `os.path` is `posixpath` here; strings are sequences of Unicode scalar
 * values, as Python's `str` is once the name has been decoded.
 */
module Paths {

  /** `FILE_SAVE_DIR`. */
  const SaveDir: string := "received_files"

  /** `s.rfind(c)`: the position of the last `c` in `s`, or -1. */
  function RFind(s: string, c: char): (i: int)
    ensures -1 <= i < |s|
    ensures i >= 0 ==> s[i] == c
    ensures forall j | i < j < |s| :: s[j] != c
  {
    if |s| == 0 then -1
    else if s[|s| - 1] == c then |s| - 1
    else RFind(s[..|s| - 1], c)
  }

  /** The three facts in `RFind`'s contract pin it down. */
  lemma RFindUnique(s: string, c: char, k: int)
    requires -1 <= k < |s|
    requires k >= 0 ==> s[k] == c
    requires forall j | k < j < |s| :: s[j] != c
    ensures RFind(s, c) == k
  {
  }

  /** `posixpath.basename(p)`: everything after the last `/`. */
  function Basename(path: string): string
  {
    path[RFind(path, '/') + 1..]
  }

  /** The basename is the longest suffix of the path without a `/`. */
  lemma BasenameSpec(path: string)
    ensures var name := Basename(path);
      && |name| <= |path| && name == path[|path| - |name|..]
      && '/' !in name
      && (|name| == |path| || path[|path| - |name| - 1] == '/')
  {
    var i := RFind(path, '/') + 1;
    assert forall c | c in path[i..] :: c != '/';
  }

  /** The last `c` of `p + b` is the last one of `b`, or of `p` when `b` has none. */
  lemma {:induction false} RFindAppend(p: string, b: string, c: char)
    ensures RFind(p + b, c) == if RFind(b, c) >= 0 then |p| + RFind(b, c) else RFind(p, c)
  {
    var s := p + b;
    var k := if RFind(b, c) >= 0 then |p| + RFind(b, c) else RFind(p, c);
    forall j | k < j < |s|
      ensures s[j] != c
    {
      if j >= |p| {
        assert s[j] == b[j - |p|];
      }
    }
    RFindUnique(s, c, k);
  }

  /** What a prefix ending in `/` (or the empty prefix) precedes keeps its basename; so does anything holding a `/`. */
  lemma {:induction false} BasenameAppend(p: string, b: string)
    requires p == [] || p[|p| - 1] == '/' || '/' in b
    ensures Basename(p + b) == Basename(b)
  {
    RFindAppend(p, b, '/');
    var i := RFind(b, '/');
    if i >= 0 {
      assert (p + b)[|p| + i + 1..] == b[i + 1..];
    } else {
      BasenameAfterSlash(p, b);
    }
  }

  lemma BasenameAfterSlash(p: string, b: string)
    requires p == [] || p[|p| - 1] == '/'
    requires RFind(b, '/') == -1
    ensures Basename(p + b) == b == Basename(b)
  {
    RFindAppend(p, b, '/');
    if p != [] {
      RFindUnique(p, '/', |p| - 1);
    }
    var k := RFind(p + b, '/');
    assert k + 1 == |p|;
    assert (p + b)[k + 1..] == b;
    assert b[RFind(b, '/') + 1..] == b;
  }

  /** `posixpath.join(a, b)` for a single component `b`. */
  function Join(a: string, b: string): string
  {
    if |b| > 0 && b[0] == '/' then b
    else if |a| == 0 || a[|a| - 1] == '/' then a + b
    else a + "/" + b
  }

  /**
   * `str.isspace()` for one character: the ASCII controls TAB through CR,
   * the information separators U+001C..U+001F, SPACE, NEL, NO-BREAK SPACE
   * and the Unicode space separators and line/paragraph separators.
   */
  predicate IsSpace(c: char)
  {
    var n := c as int;
    || 0x09 <= n <= 0x0D || 0x1C <= n <= 0x20 || n == 0x85 || n == 0xA0
    || n == 0x1680 || 0x2000 <= n <= 0x200A || n == 0x2028 || n == 0x2029
    || n == 0x202F || n == 0x205F || n == 0x3000
  }

  /** `s.rstrip()`. */
  function RStrip(s: string): string
  {
    if |s| == 0 || !IsSpace(s[|s| - 1]) then s
    else RStrip(s[..|s| - 1])
  }

  /** `rstrip` removes exactly the trailing whitespace: the result is a prefix, the cut part is all whitespace, and none is left at the end. */
  lemma {:induction false} RStripSpec(s: string)
    ensures var r := RStrip(s);
      && |r| <= |s| && r == s[..|r|]
      && (forall i | |r| <= i < |s| :: IsSpace(s[i]))
      && (r == [] || !IsSpace(r[|r| - 1]))
    decreases |s|
  {
    if |s| > 0 && IsSpace(s[|s| - 1]) {
      RStripSpec(s[..|s| - 1]);
    }
  }

  /** The path `start_server` opens for a received name: `os.path.join(FILE_SAVE_DIR, basename(name)).rstrip()`. */
  function SavePath(name: string): string
  {
    RStrip(Join(SaveDir, Basename(name)))
  }

  /** A name without `/` is its own basename. */
  lemma BasenameOfPlainName(s: string)
    requires '/' !in s
    ensures Basename(s) == s
  {
  }

  /** Sanitising an already sanitised name changes nothing. */
  lemma BasenameIdempotent(path: string)
    ensures Basename(Basename(path)) == Basename(path)
  {
    BasenameSpec(path);
    BasenameOfPlainName(Basename(path));
  }

  /** Stripping twice is stripping once. */
  lemma RStripIdempotent(s: string)
    ensures RStrip(RStrip(s)) == RStrip(s)
  {
    RStripSpec(s);
  }

  /** Stripping never reaches past a non-whitespace character. */
  lemma {:induction false} RStripAfter(p: string, s: string)
    requires p != [] && !IsSpace(p[|p| - 1])
    ensures RStrip(p + s) == p + RStrip(s)
    decreases |s|
  {
    if s != [] {
      assert (p + s)[|p + s| - 1] == s[|s| - 1];
      if IsSpace(s[|s| - 1]) {
        assert (p + s)[..|p + s| - 1] == p + s[..|s| - 1];
        RStripAfter(p, s[..|s| - 1]);
      }
    }
  }

  /**
   * The opened path is always `received_files/` followed by the basename
   * with its trailing whitespace stripped, so it keeps that prefix and has
   * no further `/`.
   */
  lemma SavePathShape(name: string)
    ensures SavePath(name) == SaveDir + "/" + RStrip(Basename(name))
    ensures '/' !in RStrip(Basename(name))
    ensures |SavePath(name)| >= |SaveDir| + 1 && SavePath(name)[..|SaveDir| + 1] == SaveDir + "/"
  {
    var b := Basename(name);
    BasenameSpec(name);
    RStripSpec(b);
    JoinUnderSaveDir(b);
    SlashNotSpace();
    RStripAfter(SaveDir + "/", b);
    var r := RStrip(b);
    assert forall c | c in r :: c in b;
  }

  lemma SlashNotSpace()
    ensures var p := SaveDir + "/"; p != [] && !IsSpace(p[|p| - 1])
  {
  }

  lemma JoinUnderSaveDir(b: string)
    requires '/' !in b
    ensures Join(SaveDir, b) == SaveDir + "/" + b
  {
    if |b| > 0 {
      assert b[0] in b;
    }
    assert SaveDir[|SaveDir| - 1] == 's';
  }

  /** Joining onto any directory keeps the basename of a non-empty component. */
  lemma {:induction false} JoinKeepsBasename(a: string, b: string)
    requires b != []
    ensures Basename(Join(a, b)) == Basename(b)
  {
    if b[0] == '/' {
    } else if |a| == 0 || a[|a| - 1] == '/' {
      BasenameAppend(a, b);
    } else {
      var d := a + "/";
      assert d[|d| - 1] == '/';
      BasenameAppend(d, b);
    }
  }

  /** A path without trailing whitespace is left alone by `rstrip`. */
  lemma RStripUnchanged(s: string)
    requires s == [] || !IsSpace(s[|s| - 1])
    ensures RStrip(s) == s
  {
  }

  /** The basename of `dir/name` is `name`, whatever `dir` holds. */
  lemma BasenameOfJoined(dir: string, name: string)
    requires '/' !in name
    ensures Basename(dir + "/" + name) == name
  {
    var p := dir + "/" + name;
    BasenameSpec(p);
    assert p[|dir|] == '/';
    assert p[|p| - |name|..] == name;
  }

  /**
   * The file client sends its basename followed by a newline; the server
   * strips the newline, so the file lands under that exact name.
   */
  lemma SavePathOfClientName(name: string)
    requires '/' !in name
    requires name == [] || !IsSpace(name[|name| - 1])
    ensures SavePath(name + "\n") == SaveDir + "/" + name
  {
    var sent := name + "\n";
    assert '/' !in sent by {
      assert forall c | c in sent :: c in name || c == '\n';
    }
    BasenameOfPlainName(sent);
    SavePathShape(sent);
    assert sent[..|sent| - 1] == name;
    assert IsSpace(sent[|sent| - 1]);
    assert RStrip(sent) == RStrip(name);
    RStripUnchanged(name);
    assert RStrip(Basename(sent)) == name;
  }

  /** Whatever directories precede the last component, only that component survives. */
  lemma SavePathOfNested(dir: string, name: string)
    requires '/' !in name
    requires name == [] || !IsSpace(name[|name| - 1])
    ensures SavePath(dir + "/" + name) == SaveDir + "/" + name
  {
    SavePathShape(dir + "/" + name);
    BasenameOfJoined(dir, name);
    RStripUnchanged(name);
  }

  /** Sanitising keeps only the last component: a traversal prefix is dropped. */
  lemma SavePathDropsTraversal()
    ensures SavePath("../../etc/passwd") == "received_files/passwd"
  {
    assert "../../etc/passwd" == "../../etc" + "/" + "passwd";
    SavePathOfNested("../../etc", "passwd");
  }

  /** A bare `..` is its own basename and is kept: such a name is not rejected. */
  lemma SavePathKeepsDotDot()
    ensures SavePath("..") == "received_files/.."
  {
    SavePathShape("..");
    BasenameOfPlainName("..");
    RStripUnchanged("..");
  }

  /** A name ending in `/` has an empty basename, so the directory itself is named. */
  lemma SavePathOfDirectoryName()
    ensures SavePath("dir/") == "received_files/"
  {
    assert "dir/" == "dir" + "/" + "";
    SavePathOfNested("dir", "");
  }
}

=== FILE: registry.dfy ===
/**
 * The relay server's client registry, `Server.clients` in server.py: a
 * Python list of `(conn, addr)` tuples, appended to on accept and removed
 * from by broadcasts and by each handler's cleanup.
 *
 * Sockets compare by identity, so a connection is an abstract id; the
 * address is the peer's `(host, port)` pair.
 */
module Registry {
  import opened Seqs

  /** Identity of one accepted socket object. */
  type Conn = nat

  datatype Addr = Addr(host: string, port: int)

  /** One `(conn, addr)` tuple of the registry. */
  datatype Entry = Entry(conn: Conn, addr: Addr)

  /** The registry as the source creates it: an empty list. */
  const Empty: seq<Entry> := []

  function Conns(clients: seq<Entry>): set<Conn>
  {
    set e | e in clients :: e.conn
  }

  /** No two entries share a connection. */
  predicate Unique(clients: seq<Entry>)
  {
    forall i, j | 0 <= i < |clients| && 0 <= j < |clients| && i != j :: clients[i].conn != clients[j].conn
  }

  /** `self.clients.append((conn, addr))`: the new entry goes last, the others stay where they were. */
  function Register(clients: seq<Entry>, e: Entry): (r: seq<Entry>)
    ensures |r| == |clients| + 1 && r[|clients|] == e
    ensures forall i | 0 <= i < |clients| :: r[i] == clients[i]
    ensures Conns(r) == Conns(clients) + {e.conn}
    ensures Unique(r) <==> Unique(clients) && e.conn !in Conns(clients)
  {
    var r := clients + [e];
    assert forall x | x in r :: x in clients || x == e;
    r
  }

  lemma UniqueTail(s: seq<Entry>)
    requires s != []
    ensures Unique(s) <==> s[0].conn !in Conns(s[1..]) && Unique(s[1..])
  {
    if Unique(s) {
      forall x | x in s[1..]
        ensures x.conn != s[0].conn
      {
        var k :| 0 <= k < |s[1..]| && s[1..][k] == x;
        assert s[k + 1] == x;
      }
    }
    if s[0].conn !in Conns(s[1..]) && Unique(s[1..]) {
      forall i, j | 0 <= i < |s| && 0 <= j < |s| && i != j
        ensures s[i].conn != s[j].conn
      {
        if i > 0 && j > 0 {
          assert s[i] == s[1..][i - 1] && s[j] == s[1..][j - 1];
        } else if i == 0 {
          assert s[j] in s[1..];
        } else {
          assert s[i] in s[1..];
        }
      }
    }
  }

  lemma {:induction false} ConnsBound(s: seq<Entry>)
    ensures |Conns(s)| <= |s|
    decreases |s|
  {
    if s != [] {
      ConnsBound(s[1..]);
      assert Conns(s) == {s[0].conn} + Conns(s[1..]);
    }
  }

  /** Uniqueness is exactly "as many distinct connections as entries". */
  lemma {:induction false} UniqueByCount(s: seq<Entry>)
    ensures Unique(s) <==> |Conns(s)| == |s|
    decreases |s|
  {
    if s != [] {
      UniqueTail(s);
      UniqueByCount(s[1..]);
      ConnsBound(s[1..]);
      assert Conns(s) == {s[0].conn} + Conns(s[1..]);
    }
  }

  /** Reordering the registry does not change whether it is unique. */
  lemma UniquePermutation(a: seq<Entry>, b: seq<Entry>)
    requires multiset(a) == multiset(b)
    ensures Unique(a) <==> Unique(b)
  {
    assert |a| == |multiset(a)| == |multiset(b)| == |b|;
    assert forall x :: x in a <==> x in multiset(a);
    assert Conns(a) == Conns(b);
    UniqueByCount(a);
    UniqueByCount(b);
  }

  /** A unique concatenation splits into two unique parts with disjoint connections. */
  lemma UniqueSplit(a: seq<Entry>, b: seq<Entry>)
    requires Unique(a + b)
    ensures Unique(a) && Unique(b)
    ensures Conns(a) !! Conns(b)
  {
    var s := a + b;
    assert forall i | 0 <= i < |a| :: s[i] == a[i];
    assert forall j | 0 <= j < |b| :: s[|a| + j] == b[j];
    forall x, y | x in a && y in b
      ensures x.conn != y.conn
    {
      var i :| 0 <= i < |a| && a[i] == x;
      var j :| 0 <= j < |b| && b[j] == y;
      assert s[i] == x && s[|a| + j] == y;
    }
  }
}

=== FILE: relay.dfy ===
/**
 * The chat relay of server.py as a state machine. Every `with self.lock`
 * block is one atomic step:
 *
 *   - `Accept`: `start` appends the accepted `(conn, addr)` (server.py:24-27);
 *   - `Forward`: `broadcast_message` fans one message out (server.py:59-70);
 *   - `Leave`: the `finally` of `handle_client` removes its own entry and,
 *     if `remove` does not raise, closes its connection (server.py:53-57).
 *
 * Threads may interleave these steps in any order, so a trace is any
 * sequence of steps. `Handle` is one handler thread's own run, driven by
 * what its `recv` calls return.
 */
module Relay {
  import opened Seqs
  import opened Registry
  import opened Broadcast

  /** A message as the handler unpickled it; the relay forwards it unchanged. */
  type Message = seq<bv8>

  /** The registry, the next fresh connection id, and the connections closed so far. */
  datatype Server = Server(clients: seq<Entry>, next: Conn, closed: set<Conn>)

  /** `Server.__init__`: no clients yet. */
  const Start: Server := Server(Empty, 0, {})

  datatype Step =
    | Accept(addr: Addr)
    | Forward(sender: Conn, message: Message, down: set<Conn>)
    | Leave(entry: Entry)

  datatype Delivery = Delivery(to: Entry, message: Message)

  datatype Effect =
    | Accepted(entry: Entry)
    | Relayed(sent: seq<Delivery>, dropped: seq<Entry>)
      /** `removed` is false when `list.remove` raised `ValueError`, so `conn.close()` was not reached. */
    | Left(removed: bool)

  datatype Outcome = Outcome(after: Server, effect: Effect)

  function Deliveries(to: seq<Entry>, m: Message): (r: seq<Delivery>)
    ensures |r| == |to|
    ensures forall k | 0 <= k < |to| :: r[k] == Delivery(to[k], m)
  {
    seq(|to|, k requires 0 <= k < |to| => Delivery(to[k], m))
  }

  function Next(p: Policy, s: Server, step: Step): Outcome
  {
    match step
    case Accept(addr) =>
      var e := Entry(s.next, addr);
      Outcome(Server(Register(s.clients, e), s.next + 1, s.closed), Accepted(e))
    case Forward(sender, m, down) =>
      var f := Fan(p, s.clients, sender, down);
      Outcome(Server(f.clients, s.next, s.closed + Conns(f.closed)), Relayed(Deliveries(f.delivered, m), f.closed))
    case Leave(e) =>
      match ListRemove(s.clients, e)
      case Some(rest) => Outcome(Server(rest, s.next, s.closed + {e.conn}), Left(true))
      case None => Outcome(s, Left(false))
  }

  /** Steps taken one after another, as the lock serialises them. */
  function Run(p: Policy, s: Server, steps: seq<Step>): Server
    decreases |steps|
  {
    if steps == [] then s else Run(p, Next(p, s, steps[0]).after, steps[1..])
  }

  /**
   * The registry invariant: no two entries share a connection, every
   * registered connection was handed out by an accept and is still open,
   * and fresh ids have never been seen.
   */
  ghost predicate Good(s: Server)
  {
    && Unique(s.clients)
    && (forall e | e in s.clients :: e.conn < s.next && e.conn !in s.closed)
    && (forall c | c in s.closed :: c < s.next)
  }

  /** Accepting registers a connection id no entry has, at the end of the list, and changes nothing else. */
  lemma AcceptRegistersFresh(p: Policy, s: Server, addr: Addr)
    requires Good(s)
    ensures var o := Next(p, s, Accept(addr));
      && o.effect == Accepted(Entry(s.next, addr))
      && s.next !in Conns(s.clients)
      && o.after.clients == s.clients + [Entry(s.next, addr)]
      && o.after.closed == s.closed
      && Good(o.after)
  {
  }

  /**
   * A relay step sends the message unchanged, never to the sender, only to
   * registered peers whose send succeeds; it drops and closes only failed
   * peers, and without failures it reaches every other entry once per
   * occurrence and leaves the registry as it was.
   */
  lemma ForwardDelivers(p: Policy, s: Server, sender: Conn, m: Message, down: set<Conn>)
    ensures var o := Next(p, s, Forward(sender, m, down));
      && o.effect.Relayed?
      && (forall d | d in o.effect.sent :: d.message == m && d.to in s.clients && d.to.conn != sender && d.to.conn !in down)
      && (forall e | e in o.effect.dropped :: e in s.clients && e.conn != sender && e.conn in down && e.conn in o.after.closed)
      && multiset(o.after.clients) + multiset(o.effect.dropped) == multiset(s.clients)
      && (forall e | e in s.clients && e.conn == sender :: e in o.after.clients)
      && (Quiet(s.clients, sender, down) ==>
            o.after == s && o.effect.sent == Deliveries(Recipients(s.clients, sender), m))
  {
    var f := Fan(p, s.clients, sender, down);
    FanSound(p, s.clients, sender, down);
    forall d | d in Deliveries(f.delivered, m)
      ensures d.message == m && d.to in f.delivered
    {
      var k :| 0 <= k < |f.delivered| && Deliveries(f.delivered, m)[k] == d;
    }
    if Quiet(s.clients, sender, down) {
      assert Conns([]) == {};
    }
  }

  /**
   * Cleanup is `list.remove`: it deletes the first equal entry and closes the
   * connection; when the entry is gone already it raises, and neither the
   * registry nor the set of closed connections changes.
   */
  lemma LeaveRemovesFirst(p: Policy, s: Server, e: Entry)
    ensures var o := Next(p, s, Leave(e));
      && o.effect == Left(e in s.clients)
      && (e in s.clients ==>
            exists i | 0 <= i < |s.clients| :: s.clients[i] == e && e !in s.clients[..i]
                                             && o.after == Server(s.clients[..i] + s.clients[i + 1..], s.next, s.closed + {e.conn}))
      && (e !in s.clients ==> o.after == s)
  {
    if e in s.clients {
      var i := IndexOf(s.clients, e);
      assert s.clients[i] == e && e !in s.clients[..i];
    }
  }

  /**
   * A peer that a broadcast dropped is no longer registered, so its own
   * handler's cleanup raises in `remove` and changes nothing.
   */
  lemma DroppedPeerCleanupRaises(p: Policy, s: Server, sender: Conn, m: Message, down: set<Conn>, e: Entry)
    requires Good(s)
    requires e in Next(p, s, Forward(sender, m, down)).effect.dropped
    ensures var s1 := Next(p, s, Forward(sender, m, down)).after;
      Next(p, s1, Leave(e)) == Outcome(s1, Left(false))
  {
    FanSound(p, s.clients, sender, down);
    var f := Fan(p, s.clients, sender, down);
    assert e.conn in Conns(f.closed);
    assert forall x | x in f.clients :: x.conn in Conns(f.clients);
  }

  lemma ForwardKeepsGood(p: Policy, s: Server, sender: Conn, m: Message, down: set<Conn>)
    requires Good(s)
    ensures Good(Next(p, s, Forward(sender, m, down)).after)
  {
    FanSound(p, s.clients, sender, down);
    var f := Fan(p, s.clients, sender, down);
    SubseqMembers(f.clients, s.clients);
    forall x | x in f.closed
      ensures x.conn < s.next
    {
    }
  }

  lemma LeaveKeepsGood(p: Policy, s: Server, e: Entry)
    requires Good(s)
    ensures Good(Next(p, s, Leave(e)).after)
  {
    if e in s.clients {
      var rest := RemoveFirst(s.clients, e);
      assert Next(p, s, Leave(e)).after == Server(rest, s.next, s.closed + {e.conn});
      assert multiset(rest + [e]) == multiset(s.clients);
      UniquePermutation(rest + [e], s.clients);
      UniqueSplit(rest, [e]);
      assert Conns([e]) == {e.conn};
      forall x | x in rest
        ensures x.conn < s.next && x.conn !in s.closed + {e.conn}
      {
        assert x in multiset(s.clients);
        assert x.conn in Conns(rest);
      }
    }
  }

  lemma NextKeepsGood(p: Policy, s: Server, step: Step)
    requires Good(s)
    ensures Good(Next(p, s, step).after)
  {
    match step
    case Accept(addr) =>
    case Forward(sender, m, down) => ForwardKeepsGood(p, s, sender, m, down);
    case Leave(e) => LeaveKeepsGood(p, s, e);
  }

  /** Any interleaving of accepts, relays and cleanups keeps the registry invariant. */
  lemma {:induction false} RunKeepsGood(p: Policy, s: Server, steps: seq<Step>)
    requires Good(s)
    ensures Good(Run(p, s, steps))
    decreases |steps|
  {
    if steps != [] {
      NextKeepsGood(p, s, steps[0]);
      RunKeepsGood(p, Next(p, s, steps[0]).after, steps[1..]);
    }
  }

  /** Every reachable relay state has distinct, open, accepted connections in its registry. */
  lemma ReachableIsGood(p: Policy, steps: seq<Step>)
    ensures Good(Run(p, Start, steps))
  {
    RunKeepsGood(p, Start, steps);
  }

  /** Registering then unregistering a connection is a net no-op on the registry, and it gets no later broadcast. */
  lemma AcceptThenLeave(p: Policy, s: Server, addr: Addr, sender: Conn, m: Message, down: set<Conn>)
    requires Good(s)
    ensures var e := Entry(s.next, addr);
      var s2 := Run(p, s, [Accept(addr), Leave(e)]);
      && s2.clients == s.clients
      && e.conn in s2.closed
      && (forall d | d in Next(p, s2, Forward(sender, m, down)).effect.sent :: d.to != e)
  {
    var e := Entry(s.next, addr);
    var s1 := Next(p, s, Accept(addr)).after;
    assert s1.clients == s.clients + [e];
    assert e !in s.clients;
    RemoveFirstAt(s1.clients, |s.clients|);
    assert s1.clients[..|s.clients|] == s.clients;
    var s2 := Next(p, s1, Leave(e)).after;
    assert Run(p, s, [Accept(addr), Leave(e)]) == s2 by {
      assert [Accept(addr), Leave(e)][1..] == [Leave(e)];
      assert Run(p, s, [Accept(addr), Leave(e)]) == Run(p, s1, [Leave(e)]);
      assert Run(p, s1, [Leave(e)]) == Run(p, s2, []);
    }
    ForwardDelivers(p, s2, sender, m, down);
  }

  /** What one `recv` in the handler loop yields. */
  datatype Receive =
      /** Non-empty data that unpickles to `message`; `down` are the peers whose send fails while relaying it. */
    | Data(message: Message, down: set<Conn>)
      /** `recv` returned `b''`: the peer disconnected. */
    | Closed
      /** `pickle.UnpicklingError`. */
    | Garbled
      /** `recv` or unpickling raised any other exception. */
    | Broken

  /**
   * One handler thread's run: `sent` and `dropped` collect its broadcasts,
   * `finished` says the loop ended and the `finally` cleanup ran, and
   * `cleaned` says `remove` succeeded and `conn.close()` was reached.
   */
  datatype Handled = Handled(after: Server, sent: seq<Delivery>, dropped: seq<Entry>, finished: bool, cleaned: bool)

  /** `handle_client(conn, addr)` with `me == (conn, addr)`, over the receive events it sees. */
  function Handle(p: Policy, s: Server, me: Entry, events: seq<Receive>): Handled
    decreases |events|
  {
    if events == [] then Handled(s, [], [], false, false)
    else if events[0].Data? then
      var o := Next(p, s, Forward(me.conn, events[0].message, events[0].down));
      var h := Handle(p, o.after, me, events[1..]);
      Handled(h.after, o.effect.sent + h.sent, o.effect.dropped + h.dropped, h.finished, h.cleaned)
    else
      var o := Next(p, s, Leave(me));
      Handled(o.after, [], [], true, o.effect.removed)
  }

  /** The handler leaves its loop exactly when some receive is not data; events after the first such one are never read. */
  lemma {:induction false} HandleStopsAtFirstNonData(p: Policy, s: Server, me: Entry, events: seq<Receive>, more: seq<Receive>)
    ensures Handle(p, s, me, events).finished <==> exists k | 0 <= k < |events| :: !events[k].Data?
    ensures Handle(p, s, me, events).finished ==> Handle(p, s, me, events + more) == Handle(p, s, me, events)
    decreases |events|
  {
    if events != [] {
      assert (events + more)[0] == events[0];
      if events[0].Data? {
        var o := Next(p, s, Forward(me.conn, events[0].message, events[0].down));
        HandleStopsAtFirstNonData(p, o.after, me, events[1..], more);
        assert (events + more)[1..] == events[1..] + more;
        if exists k | 0 <= k < |events| :: !events[k].Data? {
          var k :| 0 <= k < |events| && !events[k].Data?;
          assert events[1..][k - 1] == events[k];
        }
        if exists k | 0 <= k < |events[1..]| :: !events[1..][k].Data? {
          var k :| 0 <= k < |events[1..]| && !events[1..][k].Data?;
          assert events[k + 1] == events[1..][k];
        }
      }
    }
  }

  /**
   * Over a good state, a handler never sends to its own connection, keeps
   * the registry invariant, and (on any exit path) leaves no entry of its
   * own behind; it removes and closes its entry exactly when the entry was
   * still registered, which its own broadcasts never undo.
   */
  lemma {:induction false} HandleCleansUp(p: Policy, s: Server, me: Entry, events: seq<Receive>)
    requires Good(s)
    ensures var h := Handle(p, s, me, events);
      && Good(h.after)
      && (forall d | d in h.sent :: d.to.conn != me.conn)
      && (forall e | e in h.dropped :: e.conn != me.conn && e.conn in h.after.closed)
      && (h.finished ==> me !in h.after.clients && (h.cleaned <==> me in s.clients))
      && (h.cleaned ==> me.conn in h.after.closed)
    decreases |events|
  {
    if events != [] {
      if events[0].Data? {
        var m, down := events[0].message, events[0].down;
        var o := Next(p, s, Forward(me.conn, m, down));
        ForwardDelivers(p, s, me.conn, m, down);
        NextKeepsGood(p, s, Forward(me.conn, m, down));
        HandleCleansUp(p, o.after, me, events[1..]);
        assert me in s.clients <==> me in o.after.clients by {
          assert me in o.after.clients ==> me in multiset(s.clients);
        }
        var h := Handle(p, o.after, me, events[1..]);
        assert forall e | e in o.effect.dropped :: e.conn in h.after.closed by {
          ClosedGrows(p, o.after, me, events[1..]);
        }
      } else {
        NextKeepsGood(p, s, Leave(me));
        var o := Next(p, s, Leave(me));
        if me in s.clients {
          assert multiset(o.after.clients) + multiset{me} == multiset(s.clients);
          assert me !in o.after.clients by {
            UniquePermutation(o.after.clients + [me], s.clients);
            UniqueSplit(o.after.clients, [me]);
          }
        }
      }
    }
  }

  /** A handler only ever adds to the set of closed connections. */
  lemma {:induction false} ClosedGrows(p: Policy, s: Server, me: Entry, events: seq<Receive>)
    ensures s.closed <= Handle(p, s, me, events).after.closed
    decreases |events|
  {
    if events != [] && events[0].Data? {
      var o := Next(p, s, Forward(me.conn, events[0].message, events[0].down));
      ClosedGrows(p, o.after, me, events[1..]);
    }
  }

  /**
   * A typical session: A and B connect; A's "hi"
   * reaches B only; B disconnects; A's next message reaches nobody; C
   * connects and its "ping" reaches A only.
   */
  lemma RelayScenario(p: Policy, a: Addr, b: Addr, c: Addr, m1: Message, m2: Message, m3: Message)
    ensures
      var s1 := Next(p, Next(p, Start, Accept(a)).after, Accept(b)).after;
      var hi := Next(p, s1, Forward(0, m1, {}));
      var s2 := Next(p, hi.after, Leave(Entry(1, b))).after;
      var still := Next(p, s2, Forward(0, m2, {}));
      var s3 := Next(p, still.after, Accept(c)).after;
      var ping := Next(p, s3, Forward(2, m3, {}));
      && hi.effect.sent == [Delivery(Entry(1, b), m1)]
      && still.effect.sent == []
      && ping.effect.sent == [Delivery(Entry(0, a), m3)]
  {
    var x, y, z := Entry(0, a), Entry(1, b), Entry(2, c);
    TwoAccepts(p, a, b);
    var s1 := Server([x, y], 2, {});
    PairHearsEachOther(p, x, y, 2, {}, 0, m1);
    var hi := Next(p, s1, Forward(0, m1, {}));
    assert hi.after == s1;
    SecondLeaves(p, x, y, 2, {});
    var s2 := Server([x], 2, {1});
    LoneSenderReachesNobody(p, x, 2, {1}, m2);
    var still := Next(p, s2, Forward(0, m2, {}));
    assert still.after == s2;
    AcceptOne(p, x, c, 2, {1});
    PairHearsEachOther(p, x, z, 3, {1}, 2, m3);
  }

  /** A message from the only registered client reaches nobody and changes nothing. */
  lemma LoneSenderReachesNobody(p: Policy, x: Entry, next: Conn, closed: set<Conn>, m: Message)
    ensures var s := Server([x], next, closed);
      Next(p, s, Forward(x.conn, m, {})) == Outcome(s, Relayed([], []))
  {
    var s := Server([x], next, closed);
    ForwardWithoutFailures(p, s, x.conn, m);
    assert Recipients(s.clients, x.conn) == [];
  }

  lemma TwoAccepts(p: Policy, a: Addr, b: Addr)
    ensures Next(p, Next(p, Start, Accept(a)).after, Accept(b)).after == Server([Entry(0, a), Entry(1, b)], 2, {})
  {
    assert Next(p, Start, Accept(a)).after == Server([Entry(0, a)], 1, {});
  }

  lemma AcceptOne(p: Policy, x: Entry, addr: Addr, next: Conn, closed: set<Conn>)
    ensures Next(p, Server([x], next, closed), Accept(addr)).after == Server([x, Entry(next, addr)], next + 1, closed)
  {
  }

  lemma SecondLeaves(p: Policy, x: Entry, y: Entry, next: Conn, closed: set<Conn>)
    requires x != y
    ensures Next(p, Server([x, y], next, closed), Leave(y)).after == Server([x], next, closed + {y.conn})
  {
    assert IndexOf([x, y], y) == 1;
    assert [x, y][..1] + [x, y][2..] == [x];
  }

  /** With two clients and no failing send, a message from one reaches exactly the other. */
  lemma PairHearsEachOther(p: Policy, x: Entry, y: Entry, next: Conn, closed: set<Conn>, sender: Conn, m: Message)
    requires x.conn != y.conn && (sender == x.conn || sender == y.conn)
    ensures var s := Server([x, y], next, closed);
      Next(p, s, Forward(sender, m, {})) == Outcome(s, Relayed([Delivery(if sender == x.conn then y else x, m)], []))
  {
    var s := Server([x, y], next, closed);
    ForwardWithoutFailures(p, s, sender, m);
    RecipientsOfPair(x, y, sender);
    var z := if sender == x.conn then y else x;
    assert Deliveries([z], m) == [Delivery(z, m)];
  }

  lemma ForwardWithoutFailures(p: Policy, s: Server, sender: Conn, m: Message)
    ensures Next(p, s, Forward(sender, m, {})) == Outcome(s, Relayed(Deliveries(Recipients(s.clients, sender), m), []))
  {
    FanSound(p, s.clients, sender, {});
    assert Conns([]) == {};
  }

  lemma RecipientsOfPair(x: Entry, y: Entry, sender: Conn)
    requires x.conn != y.conn && (sender == x.conn || sender == y.conn)
    ensures Recipients([x, y], sender) == if sender == x.conn then [y] else [x]
  {
    assert [x, y][1..] == [y];
    assert [y][1..] == [];
    assert Recipients([y], sender) == (if y.conn == sender then [] else [y]) + Recipients([], sender);
    assert Recipients([x, y], sender) == (if x.conn == sender then [] else [x]) + Recipients([y], sender);
  }
}

=== FILE: seqs.dfy ===
/**
 * Sequence operations with Python list semantics, shared by the relay model.
 *
 * `RemoveFirst` and `ListRemove` are Python's `list.remove(x)`: the first
 * element equal to `x` is deleted, and a missing element raises
 * `ValueError` (modelled as `None`).
 */
module Seqs {

  datatype Option<T> = None | Some(value: T)

  /** Position of the first element of `s` equal to `x`. */
  function IndexOf<T(==)>(s: seq<T>, x: T): (i: nat)
    requires x in s
    ensures i < |s| && s[i] == x
    ensures x !in s[..i]
  {
    if s[0] == x then 0
    else
      var j := IndexOf(s[1..], x);
      assert s[..j + 1] == [s[0]] + s[1..][..j];
      j + 1
  }

  /** `list.remove(x)` on a list known to contain `x`. */
  function RemoveFirst<T(==)>(s: seq<T>, x: T): (r: seq<T>)
    requires x in s
    ensures |r| == |s| - 1
    ensures multiset(r) == multiset(s) - multiset{x}
  {
    var i := IndexOf(s, x);
    assert s == s[..i] + [x] + s[i + 1..];
    s[..i] + s[i + 1..]
  }

  /** `list.remove(x)`: `None` stands for the `ValueError` raised when `x` is absent. */
  function ListRemove<T(==)>(s: seq<T>, x: T): (r: Option<seq<T>>)
    ensures r.None? <==> x !in s
    ensures r.Some? ==> |r.value| == |s| - 1 && multiset(r.value) + multiset{x} == multiset(s)
  {
    if x in s then Some(RemoveFirst(s, x)) else None
  }

  /** `list.remove` deletes exactly the first occurrence and keeps everything else in order. */
  lemma ListRemoveDeletesFirst<T>(s: seq<T>, x: T, r: seq<T>)
    requires ListRemove(s, x) == Some(r)
    ensures exists i :: 0 <= i < |s| && s[i] == x && x !in s[..i] && r == s[..i] + s[i + 1..]
  {
    var i := IndexOf(s, x);
    assert s[i] == x && x !in s[..i] && r == s[..i] + s[i + 1..];
  }

  /** When `s[i]` does not occur earlier, `list.remove(s[i])` deletes position `i`. */
  lemma RemoveFirstAt<T>(s: seq<T>, i: nat)
    requires i < |s|
    requires s[i] !in s[..i]
    ensures RemoveFirst(s, s[i]) == s[..i] + s[i + 1..]
  {
  }

  lemma Assoc<T>(a: seq<T>, b: seq<T>, c: seq<T>)
    ensures a + b + c == a + (b + c)
  {
  }

  /** `a` is obtained from `b` by deleting elements, keeping the order of the rest. */
  ghost predicate IsSubseq<T>(a: seq<T>, b: seq<T>)
    decreases |b|
  {
    a == [] || (b != [] && ((a[0] == b[0] && IsSubseq(a[1..], b[1..])) || IsSubseq(a, b[1..])))
  }

  lemma {:induction false} SubseqRefl<T>(s: seq<T>)
    ensures IsSubseq(s, s)
    decreases |s|
  {
    if s != [] {
      SubseqRefl(s[1..]);
    }
  }

  lemma {:induction false} SubseqTrans<T>(a: seq<T>, b: seq<T>, c: seq<T>)
    requires IsSubseq(a, b) && IsSubseq(b, c)
    ensures IsSubseq(a, c)
    decreases |c|
  {
    if a == [] {
    } else if b[0] == c[0] && IsSubseq(b[1..], c[1..]) {
      if a[0] == b[0] && IsSubseq(a[1..], b[1..]) {
        SubseqTrans(a[1..], b[1..], c[1..]);
      } else {
        SubseqTrans(a, b[1..], c[1..]);
      }
    } else {
      SubseqTrans(a, b, c[1..]);
    }
  }

  /** Deleting one position leaves a subsequence. */
  lemma {:induction false} SubseqDelete<T>(s: seq<T>, i: nat)
    requires i < |s|
    ensures IsSubseq(s[..i] + s[i + 1..], s)
    decreases i
  {
    if i == 0 {
      assert s[..0] + s[1..] == s[1..];
      SubseqRefl(s[1..]);
    } else {
      var a := s[..i] + s[i + 1..];
      SubseqDelete(s[1..], i - 1);
      assert a[1..] == s[1..][..i - 1] + s[1..][i..];
    }
  }

  /** `list.remove` keeps the remaining elements in their order. */
  lemma RemoveFirstSubseq<T>(s: seq<T>, x: T)
    requires x in s
    ensures IsSubseq(RemoveFirst(s, x), s)
  {
    SubseqDelete(s, IndexOf(s, x));
  }

  /** Deleting elements never adds one: every member of a subsequence is a member of the whole. */
  lemma {:induction false} SubseqMembers<T>(a: seq<T>, b: seq<T>)
    requires IsSubseq(a, b)
    ensures forall x | x in a :: x in b
    decreases |b|
  {
    if a == [] {
    } else if a[0] == b[0] && IsSubseq(a[1..], b[1..]) {
      SubseqMembers(a[1..], b[1..]);
      assert forall x | x in a :: x == a[0] || x in a[1..];
    } else {
      SubseqMembers(a, b[1..]);
    }
  }
}
